=== FILE: README.md ===
# Jubi aggregator — a Dafny model

This project models the aggregation engine of the Jubi market-data collector,
`aggregator/jubi.js`. The engine turns stored order rows and ticker snapshots
into the summaries the front end displays. It has five calculations and a
dispatcher:

- **Bars** (`_getBarsWithInXHours`). Time-ordered order rows are folded into
  5-, 10- and 30-minute buckets. Each bucket keeps the timestamp of its first
  row, the summed amount, the summed notional volume (`price * amount`) and
  the volume-weighted price.
- **Waves** (`_lastWaveSinceNow`). A sub-daily price series is consolidated
  into day bars holding a high and a low. For each ratio threshold the engine
  reports how many days ago the newest day with `high / low >= ratio` started.
  It reports the sentinel `'> 3'` when no day qualifies.
- **Tick** (`_proccess` and its helpers). A ticker row is enriched with:
  - the price position inside the day's range;
  - a variance score;
  - the buy/sell spread;
  - when trend data exists for the coin, the daily change and the wave ages.
- **Distribution** (`_getAmountByPrice`, after the query). This computes the
  mean amount over all rows, over buy rows and over sell rows. For each of
  the three it keeps the rows at or above that mean, ascending by amount.
- **Biggest** (`_getBiggestAmountOrders`). Within a time window, the engine
  takes as many rows as the integer part of `percent * count`, choosing those
  with the largest amounts. They come back in ascending amount order. The
  model takes the integer part of the exact product; the source takes it of
  the product rounded to a double (see "Left out").
- **Aggregate** (`aggregate`). The request kind selects one of the
  calculations.

Shared definitions are split into small modules:

- `Wrappers`: `Option` and `Result`.
- `Quotients`: JavaScript division. Dividing by zero gives NaN or an
  infinity, which the model reports as `None`.
- `Seqs`: filtering and reversal.
- `Sorting`: a stable sort by a real key, with the behaviour of lodash's
  `_.sortBy` and `_.orderBy(…, 'asc')`.
- `Orders`: the order row and its sums.

Prices and amounts are exact reals. Request parameters, the clock and the
start-of-day truncation are inputs. The rows a SQL query would return are
inputs too, already restricted and ordered as its `where` and `order by`
clauses say. The one exception is the biggest-orders window: it is computed
from a table, so the model states the count and the limit against the same
rows.

## Model

| member | source | states |
|---|---|---|
| Bars.Absorb | aggregator/jubi.js:264-268 | folding a row into a bar keeps the bar's timestamp; a positive amount strictly increases the bar's amount, and a non-negative notional does not decrease its volume; the new price times the amount is the volume, or there is no price when the amount is zero |
| Bars.SeedIsSingleRowBar | aggregator/jubi.js:257-262 | the bar opened for an empty bucket is the aggregate of the row alone: its timestamp, its amount, its notional as volume and its price |
| Bars.Lookup | aggregator/jubi.js:255 | reading a bucket finds a stored bar with that slot, and finds nothing exactly when no stored bar has that slot |
| Bars.Place | aggregator/jubi.js:254-268 | storing a row into the bucket store keeps the store in ascending slot order and adds at most one bar |
| Bars.LookupPlace | aggregator/jubi.js:254-268 | after storing a row, its own slot holds the old bar merged with the row (or a new bar seeded from the row), and every other slot is unchanged |
| Bars.FoldBars | aggregator/jubi.js:250-306 | the bars of one width come out in strictly ascending slot order, as JavaScript enumerates integer keys, and there are never more bars than rows |
| Bars.RowsInSlotSnoc | aggregator/jubi.js:254 | a new row belongs to exactly the slot `floor(timestamp / width)` |
| Bars.MergeMatchesBarOf | aggregator/jubi.js:256-268 | seeding with the first row and then absorbing the rest gives the bar computed from all the rows of the slot at once |
| Bars.FoldBarsAggregatesSlots | aggregator/jubi.js:250-301 | for every slot, the stored bar is the aggregate of exactly the rows in that slot: the timestamp of the first, the summed amount and volume, and their ratio as price; a slot with no rows has no bar |
| Bars.BarsAreSlotAggregates | aggregator/jubi.js:250-306 | every emitted bar aggregates a non-empty set of rows, namely those in its own slot |
| Bars.EveryRowHasItsBar | aggregator/jubi.js:254-263 | every row's slot has a bar in the output, so no row is dropped |
| Bars.PricesAreVolumeWeighted | aggregator/jubi.js:264-267 | with positive amounts, every bar has a positive amount and its price is volume divided by amount |
| Bars.PlaceTotals | aggregator/jubi.js:257-266 | storing a row raises the total amount of the bars by the row's amount and their total volume by its notional |
| Bars.FoldBarsTotals | aggregator/jubi.js:250-301 | for each width, the bar amounts sum to the total row amount and the bar volumes to the total notional |
| Bars.BarsWithinHours | aggregator/jubi.js:245-307 | the single pass produces, for each of the 5-, 10- and 30-minute widths, the same bars as folding that width on its own |
| Bars.TwoRowsOneBar | aggregator/jubi.js:254-268 | two rows a minute apart share a 5-minute bar that keeps the first timestamp, sums amounts and volumes, and has the weighted price 1.6 |
| Waves.NewDayIsWholeDayLater | aggregator/jubi.js:100 | a sample opens a new day bar exactly when at least one whole day of epoch milliseconds, counted toward zero, separates it from the current bar's day start (moment's `diff` without its time-zone correction) |
| Waves.WalkSamples | aggregator/jubi.js:96-116 | a day bar is in progress exactly when some sample was read; there are never more bars than samples; every bar's low is at most its high |
| Waves.DayBars | aggregator/jubi.js:96-120 | there are at most as many day bars as samples, none exactly for an empty series, and every bar has low at most high |
| Waves.AddSample | aggregator/jubi.js:100-115 | grouping one more sample leaves every day group non-empty |
| Waves.Groups | aggregator/jubi.js:96-116 | the day groups are non-empty, and there are none exactly when there are no samples |
| Waves.AddSampleFlatten | aggregator/jubi.js:100-115 | adding a sample to the groups appends it to their concatenation |
| Waves.GroupsFlatten | aggregator/jubi.js:96-116 | the day groups partition the series in order: concatenated, they give back the samples |
| Waves.AddSampleKeepsDays | aggregator/jubi.js:100-115 | grouping one sample preserves both day rules: each group lies within a day of its start, and each new group starts at least a day after the previous group's start |
| Waves.GroupsFollowDays | aggregator/jubi.js:100-104 | a day bar opens only for a sample at least one day after the current bar's day start; every other sample joins the current bar |
| Waves.MaxPrice | aggregator/jubi.js:111-112 | the running high is at least every price of the group and equals one of them |
| Waves.MinPrice | aggregator/jubi.js:113-114 | the running low is at most every price of the group and equals one of them |
| Waves.ExtendGroup | aggregator/jubi.js:110-115 | updating a bar's high and low with one sample gives the bar of the group extended by that sample |
| Waves.NewDayStep | aggregator/jubi.js:100-109 | when a sample opens a new day, the loop closes the current bar and opens one for the new group |
| Waves.SameDayStep | aggregator/jubi.js:110-115 | when a sample stays in the day, the loop's current bar tracks the extended group |
| Waves.WalkFollowsGroups | aggregator/jubi.js:96-116 | at every point of the loop, the closed bars and the bar in progress are the day bars of the groups read so far |
| Waves.DayBarsAreGroupExtremes | aggregator/jubi.js:96-120 | the emitted bars, including the final in-progress one, are one per day group, with the group's day start and its maximum and minimum price |
| Waves.ThreeSamplesTwoDays | aggregator/jubi.js:96-120 | two samples within an hour share a day bar, and a sample 25 hours later opens a second one |
| Waves.QualifiesAsProduct | aggregator/jubi.js:130 | the test `high / low >= ratio` is `high >= ratio * low` for a positive low and `high <= ratio * low` for a negative one; with a zero low the quotient is an infinity or NaN, so the test passes exactly when high is positive |
| Waves.FirstWave | aggregator/jubi.js:126-134 | the scan yields '> 3' exactly when no bar qualifies; otherwise it yields the age of the first qualifying bar in scan order |
| Waves.ScanFindsNone | aggregator/jubi.js:122-134 | after sorting by descending date, the scan finds nothing exactly when no bar qualifies |
| Waves.ScanFindsNewest | aggregator/jubi.js:122-134 | when some bar qualifies, the scan after sorting by descending date finds one, and the bar it reports is a newest qualifying bar, with that bar's age |
| Waves.LastWave | aggregator/jubi.js:122-134 | for one threshold: '> 3' exactly when no day's high/low reaches the ratio (inclusively), otherwise `(now - date) / 86400000` for the most recent such day |
| Waves.LastWaveSinceNow | aggregator/jubi.js:90-138 | there is one result per threshold label; for each, the result is '> 3' exactly when no day bar of the series qualifies, and otherwise the age of the newest qualifying day bar |
| Tick.PricePosition | aggregator/jubi.js:73-77 | the position times the range is `last - low`; it is undefined exactly when high equals low; inside a proper range it lies in [0, 1], 0 at the low and 1 at the high |
| Tick.VarianceScore | aggregator/jubi.js:79-82 | the score is at least 0.5, equals 0.5 exactly at position 0.5, is at most 1 for positions in [0, 1], and is 1 at either end |
| Tick.VarianceAtMostOne | aggregator/jubi.js:79-82 | for a position in [0, 1] the score is at most 1 |
| Tick.VarianceSymmetric | aggregator/jubi.js:79-82 | the score of p equals the score of 1 - p |
| Tick.PercentChange | aggregator/jubi.js:84-87 | the change is defined exactly when the base is non-zero, and then it times the base equals 100 times the difference |
| Tick.SpreadExample | aggregator/jubi.js:84-87 | buying at 100 and selling at 110 is a 10% spread |
| Tick.Process | aggregator/jubi.js:42-70 | the enriched row copies name, last, buy and sell and drops high and low; the position is the price position of last in the day's range, undefined exactly when high equals low; the variance is the variance score of that position, present exactly when the position is, and for an in-range price the two lie in [0, 1] and [0.5, 1]; the spread is the percentage change from buy to sell, undefined exactly when buy is zero; trend fields appear exactly when the coin has trend data, and then the wave ages are the last waves of the coin's series for the configured thresholds, one per threshold label, and the daily change is the percentage change from yesterday's price to the last price, undefined exactly when yesterday's price is zero |
| Tick.ProcessTicks | aggregator/jubi.js:23-28 | the 'tick' request maps every row through the processor, keeping length and order |
| Distribution.AtLeast | aggregator/jubi.js:212 | the filtered rows are exactly the input rows with amount at least the bound, each kept as often as it occurs in the input, and a row below the bound not at all |
| Distribution.AtOrAbove | aggregator/jubi.js:212 | with an undefined mean no row passes, because every comparison with NaN is false; otherwise the rows kept are exactly those at or above the mean, each as often as in the input |
| Distribution.AtLeastWithKey | aggregator/jubi.js:212 | keeping the rows at or above a bound and then taking the rows of one amount gives, in input order, all rows of that amount when it reaches the bound and none otherwise |
| Distribution.RunningAll | aggregator/jubi.js:201-204 | after reading any rows, the running sum is the total amount of the rows read |
| Distribution.RunningBuys | aggregator/jubi.js:205-206 | after reading any rows, the buy sum is the total amount of the 'buy' rows read |
| Distribution.RunningNonBuys | aggregator/jubi.js:207-208 | after reading any rows, the sell sum is the total amount of every row read whose type is not 'buy' |
| Distribution.RunningSums | aggregator/jubi.js:198-209 | after reading any rows, the running totals are the amount over all rows, over buy rows, and over every non-buy row |
| Distribution.Total | aggregator/jubi.js:198-209 | the loop computes the total amount, the buy total, and a sell total that counts every row whose type is not 'buy' |
| Distribution.AboveSummarises | aggregator/jubi.js:212 | filtering by the mean and sorting ascending keeps exactly the qualifying rows with their multiplicities, ascending by amount, and rows of equal amount in input order |
| Distribution.AmountByPrice | aggregator/jubi.js:198-224 | `avg`, `buyAvg` and `sellAvg` are the total over all rows, buy rows and non-buy rows, divided by the count of all rows, buy rows and 'sell' rows (undefined for a zero count); `list`, `buyList` and `sellList` hold exactly the rows of their own partition at or above that partition's mean, ascending by amount and stable; an empty input gives three empty lists |
| Distribution.SumBelowBound | aggregator/jubi.js:211 | rows all below a bound sum to less than the bound times their count |
| Distribution.SomeRowReachesBound | aggregator/jubi.js:211-212 | when non-empty rows sum to at least a bound times their count, some row reaches the bound |
| Distribution.SomeRowReaches | aggregator/jubi.js:211-212 | some row of a non-empty partition reaches the partition's mean |
| Distribution.MeanIsReached | aggregator/jubi.js:212 | the list of a non-empty partition is never empty |
| Distribution.SellTotalIsSellSum | aggregator/jubi.js:205-208 | when every row is 'buy' or 'sell', the sell total is the sum of the 'sell' amounts, so `sellAvg` is their mean |
| Distribution.OtherTypesInflateSellMean | aggregator/jubi.js:205-216 | a row of a type other than 'buy' and 'sell' adds to the sell total but not to the sell count: for any 'sell' row and any such row with a positive amount, the sell mean is the sum of both amounts and the sell list is empty |
| Biggest.TruncateBounds | aggregator/jubi.js:156 | the integer part of a number, the limit the share is meant to give, is the integer next to it on the side of zero |
| Biggest.LimitIsWholeShare | aggregator/jubi.js:156 | the limit is the whole number of rows in `percent * count`, rounded toward zero, and it is negative exactly when the share is at most minus one row |
| Biggest.AsWrittenInDecimalRange | aggregator/jubi.js:156 | for zero and for numbers of magnitude in [10^-6, 10^21), which print in decimal notation, `parseInt` of the number is its integer part |
| Biggest.TinyShareReadsAsRows | aggregator/jubi.js:156 | a positive share below 10^-6 reads as between one and nine rows, where its integer part is zero |
| Biggest.NineTradesAsWritten | aggregator/jubi.js:156-161 | a percentage of 10^-7 over nine trades gives the limit 9 as written, so all nine trades come back, where the integer part of the share keeps none |
| Biggest.WindowIsLastHours | aggregator/jubi.js:143-147 | a row is in the window exactly when it is of the coin, earlier than now, and less than `hours` hours (`hours * 3600000` ms) old |
| Biggest.Window | aggregator/jubi.js:146-147 | the window holds exactly the table rows of the coin strictly between start and end, with their multiplicities |
| Biggest.WindowKeepsAll | aggregator/jubi.js:146-147 | a table lying entirely inside the window is the window |
| Biggest.PrefixDominates | aggregator/jubi.js:160-161 | in descending amount order, the first n rows are at least as large as every row after them |
| Biggest.ReverseAscends | aggregator/jubi.js:177 | reversing a descending list gives an ascending one |
| Biggest.TopOfSorted | aggregator/jubi.js:157-177 | the reversed first n rows of the descending order are n rows of the window, ascending, none smaller than a row left out |
| Biggest.Largest | aggregator/jubi.js:157-177 | the result has n rows drawn from the window, ascending by amount (largest last), and no row left out is larger than a row kept |
| Biggest.Select | aggregator/jubi.js:157-177 | a negative limit is refused; otherwise the result is the top min(limit, count) rows in ascending order |
| Biggest.BiggestOrders | aggregator/jubi.js:141-178 | a missing or empty coin is exactly the failing assertion; otherwise, with hours defaulting to 24 and percent to 0.3, the limit is the integer part of the exact product `percent * count` over the window (start, end); a negative limit fails, and otherwise the result is the top min(limit, count) rows of the window by amount, in ascending order |
| Biggest.LimitWithinCount | aggregator/jubi.js:156 | a percent in [0, 1] gives a limit between 0 and the window's count |
| Biggest.ShareOfWindow | aggregator/jubi.js:141-177 | with a coin given and a percent in [0, 1], a table lying inside the window gives exactly the integer part of the exact product `percent * count` rows |
| Biggest.TenTradesLimits | aggregator/jubi.js:141-156 | half of ten trades is five, and the default 30% of ten trades is three |
| Sorting.SortBy | aggregator/jubi.js:122 | sorting yields an ascending permutation of the input |
| Sorting.SortByStable | aggregator/jubi.js:122 | sorting keeps, for every key value, the input order of the elements carrying it, as lodash's sort does |
| Sorting.SortByMembers | aggregator/jubi.js:122 | sorting neither loses nor invents elements |
| Sorting.FirstPassingHasLeastKey | aggregator/jubi.js:122-131 | in a sorted rearrangement, the first element that passes a test has the smallest key among all elements that pass |
| Sorting.FilterWithKey | aggregator/jubi.js:212-222 | when all elements of one key pass the filter alike, filtering keeps all of them in their input order or none of them |
| Seqs.Filter | aggregator/jubi.js:212-216 | `_.filter` keeps exactly the elements that pass the test, each as often as in the input, and never more elements than the input has |
| Seqs.FilterAppend | aggregator/jubi.js:212-216 | filtering a concatenation is the concatenation of the filtered parts, so `_.filter` keeps the passing elements in their input order |
| Seqs.Reverse | aggregator/jubi.js:177 | `_.reverse` yields the same elements, the i-th from the end at position i |
| Quotients.Divide | aggregator/jubi.js:75 | a quotient exists exactly when the denominator is non-zero, and then it times the denominator is the numerator; a zero denominator, NaN or an infinity in JavaScript, gives none |
| Quotients.Mean | aggregator/jubi.js:211-216 | a mean exists exactly when the count is positive, and then it times the count is the total |
| Aggregate.Aggregate | aggregator/jubi.js:22-36 | an unknown request kind yields nothing; 'tick' maps the processor over the rows; 'order-amount-by-price' gives the distribution of the grouped rows, with `buyAvg` the buy total over the buy count and `sellAvg` the non-buy total over the 'sell' count; 'order-biggest-amount-percent' gives the biggest orders for the request's coin, hours and percent; 'bars-within-hours' gives the three bar lists of the windowed rows |

## Left out

- The Sequelize connection and every SQL query. The grouped rows of
  `_getAmountByPrice` and the time-ordered rows of `_getBarsWithInXHours` are
  inputs, as the queries would return them. For biggest orders, the count
  query and the `order by amount desc limit` query are modelled on a table
  input.
- SQL leaves the order of equal amounts unspecified. The model breaks ties
  stably.
- The clock (`moment()`, `Date.now()`) is the parameter `now`. The
  start-of-day truncation is the parameter `startOfDay`.
- Waves.OpensNewDay, Waves.NewDayIsWholeDayLater, Waves.GroupsFollowDays:
  moment's `diff(…, 'days')` is modelled as a whole-day difference of epoch
  milliseconds (`DayDiff`), so a new day bar opens for a sample at least
  86400000 ms after the current day start. moment also corrects the
  difference by the change of time-zone offset between the two dates; that
  daylight-saving correction is not modelled, and every member built on
  the day test (WalkSamples, DayBars, LastWaveSinceNow, Tick.Process)
  inherits the simplification.
- `toFixed`, `toLocaleString`, the `hh:mm:ss` time field and the display
  field names. The model keeps numbers unrounded.
- Distribution.MeanIsReached: this and the other sum and mean guarantees
  (Distribution.SomeRowReaches, Bars.FoldBarsTotals, Bars.FoldBarsAggregatesSlots,
  Bars.PricesAreVolumeWeighted) hold for exact arithmetic only. JavaScript
  adds doubles, which round and are not associative: three rows of amount
  0.1 have the double mean 0.10000000000000002, which none of them reaches.
- Tick.Process: the variance is computed from the exact position, not from
  the position rounded to three decimals.
- `parseFloat` and `parseInt` on strings. Inputs are numbers already.
- Biggest.TruncateBounds: the limit of `_getBiggestAmountOrders` is the
  integer part of `percent * count`. `parseInt` gives that only for numbers
  printed in decimal notation. Below 10^-6 and from 10^21 on it reads the
  leading digit of exponent notation; `Biggest.LimitAsWritten` models that
  reading and the Findings table records it. The leading digit is computed
  on exact reals, not on the shortest decimal form of a double.
- Biggest.BiggestOrders: the limit is the integer part of the exact product
  `percent * count`. The source first rounds the product to a double, and
  the rounding can fall just below a whole number. `0.29 * 100` is
  `28.999999999999996` in JavaScript, so the source keeps 28 of 100 rows
  where the model keeps 29; `0.57 * 100`, `0.58 * 50` and `0.7 * 90` lose a
  row in the same way. The default 0.3, and 0.1, 0.2, 0.25 and 0.5, do not
  diverge for realistic counts. Double multiplication is not modelled.
- Biggest.ShareOfWindow: for the same reason, "exactly the integer part of
  `percent * count` rows" holds for the exact product only; at 0.29 over 100
  rows in the window the source returns 28.
- NaN and the infinities both become `None`. Where the source compares such
  a value, the model states the comparison's outcome instead; see
  `Waves.Qualifies` and `Distribution.AtOrAbove`.
- Parameter defaults apply only when a parameter is absent, as a JavaScript
  default does for `undefined`. An explicit `null` is not modelled.
- The `hours` default of 72 in `_getAmountByPrice` only shapes its query. It
  is therefore not modelled.
- The trend-event subscription that fills `gTrends`. The trend snapshot is
  part of the environment.
- The module-load call `_getAmountByPrice('mryc')`. It is a side effect with
  no result.
- Bars.Slot, Bars.RowsInSlotSnoc: the slot of a row is the floor of
  `t / width`. For a non-negative integer timestamp `parseInt(t / width)`
  agrees with that at t = 0 and for every t >= 2 up to 10^21 times the
  width, because those quotients print in decimal notation. The exception
  is t = 1 on the 30-minute width: `1 / 1800000` prints as
  `5.555555555555555e-7`, so the source files that row under key 5, where
  the model uses slot 0. Such a row lies about 55 years before any
  realistic window. Slot keys above 2^32 − 2, which JavaScript would
  enumerate in insertion order, are not distinguished either.
- The exchange HTTP client and its request signing
  (`exchange-api/jubi.js`). They are not part of this model.
- The cron collector (`collector/jubi.js`), the event wrapper
  (`events/order-event.js`) and the configuration (`config/default.js`).
  They are not part of this model either.

## Findings

| source | as written | input that shows it | evidently intended | confidence | as-written member | corrected member |
|---|---|---|---|---|---|---|
| aggregator/jubi.js:156 | `parseInt(percent * count)` turns the share into a string and reads its leading digits | `percent` = 0.0000001 with nine trades in the window: the share 9e-7 prints as "9e-7", the limit is 9 and all nine trades come back | the integer part of the share, here 0 rows | not executed | Biggest.NineTradesAsWritten | Biggest.LimitIsWholeShare |

=== FILE: aggregate.dfy ===
/** The exported entry point `aggregate(type, data)` (aggregator/jubi.js):
    the request kind selects one of the four aggregations. The database
    queries are replaced by their results, and the clock, the latest trend
    snapshot and the start-of-day truncation by parameters. */
module Aggregate {
  import opened Wrappers
  import opened Quotients
  import opened Seqs
  import opened Orders
  import opened Tick
  import opened Distribution
  import opened Biggest
  import opened Bars

  /** What a request carries: the ticker rows of a 'tick' request, the
      arguments of the order queries, and the rows those queries return
      (`grouped` for the amount distribution, `windowed` for the bars,
      `table` for the biggest orders, which the model filters itself). */
  datatype Data = Data(ticks: seq<TickerRow>, coin: Option<string>, hours: Option<real>,
                       percent: Option<real>, grouped: seq<OrderRow>,
                       windowed: seq<OrderRow>, table: seq<OrderRow>)

  /** The environment the source reads from its module state and the clock. */
  datatype Env = Env(trends: map<string, TrendSeries>, now: int, startOfDay: int -> int)

  datatype Response =
    | Ticks(rows: seq<EnrichedRow>)
    | Amounts(distribution: Distribution)
    | BiggestAmounts(orders: Result<seq<OrderRow>, OrdersError>)
    | AllBars(bars: BarSet)

  const KnownKinds: set<string> :=
    {"tick", "order-amount-by-price", "order-biggest-amount-percent", "bars-within-hours"}

  /** A kind outside the four yields `undefined`, modelled as None. */
  method Aggregate(kind: string, data: Data, env: Env) returns (r: Option<Response>)
    ensures r.None? <==> kind !in KnownKinds
    ensures kind == "tick" ==>
      && r.Some? && r.value.Ticks?
      && |r.value.rows| == |data.ticks|
      && (forall i :: 0 <= i < |data.ticks| ==>
            r.value.rows[i] == Process(data.ticks[i], env.trends, env.now, env.startOfDay))
    ensures kind == "order-amount-by-price" ==>
      && r.Some? && r.value.Amounts?
      && r.value.distribution.avg == Mean(SumAmount(data.grouped), |data.grouped|)
      && r.value.distribution.buyAvg
         == Mean(SumAmount(Filter(data.grouped, IsBuy)), |Filter(data.grouped, IsBuy)|)
      && r.value.distribution.sellAvg
         == Mean(SumAmount(Filter(data.grouped, IsNotBuy)), |Filter(data.grouped, IsSell)|)
      && Summarises(r.value.distribution.list, data.grouped, r.value.distribution.avg)
      && Summarises(r.value.distribution.buyList, Filter(data.grouped, IsBuy),
                    r.value.distribution.buyAvg)
      && Summarises(r.value.distribution.sellList, Filter(data.grouped, IsSell),
                    r.value.distribution.sellAvg)
    ensures kind == "order-biggest-amount-percent" ==>
      && r.Some? && r.value.BiggestAmounts?
      && r.value.orders == BiggestOrders(data.coin, data.hours, data.percent, env.now, data.table)
    ensures kind == "bars-within-hours" ==>
      && r.Some? && r.value.AllBars?
      && r.value.bars.fiveMinute == FoldBars(data.windowed, FiveMinutes)
      && r.value.bars.tenMinute == FoldBars(data.windowed, TenMinutes)
      && r.value.bars.thirtyMinute == FoldBars(data.windowed, ThirtyMinutes)
  {
    if kind == "tick" {
      var rows := ProcessTicks(data.ticks, env.trends, env.now, env.startOfDay);
      r := Some(Ticks(rows));
    } else if kind == "order-amount-by-price" {
      var d := AmountByPrice(data.grouped);
      r := Some(Amounts(d));
    } else if kind == "order-biggest-amount-percent" {
      r := Some(BiggestAmounts(BiggestOrders(data.coin, data.hours, data.percent, env.now, data.table)));
    } else if kind == "bars-within-hours" {
      var bars := BarsWithinHours(data.windowed);
      r := Some(AllBars(bars));
    } else {
      r := None;
    }
  }
}

=== FILE: bars.dfy ===
/** The multi-resolution bar builder: order rows folded into 5-, 10- and
    30-minute volume-weighted bars (aggregator/jubi.js, _getBarsWithInXHours). */
module Bars {
  import opened Wrappers
  import opened Quotients
  import opened Seqs
  import opened Orders

  const MinuteMs: nat := 60 * 1000
  const FiveMinutes: nat := 5 * MinuteMs
  const TenMinutes: nat := 10 * MinuteMs
  const ThirtyMinutes: nat := 30 * MinuteMs

  /** One bucket: the timestamp of the row that opened it, the running
      volume-weighted price (None where the source divides by a zero amount),
      the summed amount and the summed notional volume. */
  datatype Bar = Bar(timestamp: nat, price: Option<real>, amount: real, volume: real)

  /** The bucket index `parseInt(timestamp / width)`, read as the floor of
      the quotient. Every timestamp except 1 on the 30-minute width gives a
      quotient that prints in decimal notation, where `parseInt` takes the
      floor. */
  function Slot(t: nat, width: nat): nat
    requires width > 0
  {
    t / width
  }

  function BarSlot(b: Bar, width: nat): nat
    requires width > 0
  {
    Slot(b.timestamp, width)
  }

  /** The bucket object enumerated by `_.values`: integer keys come out in
      ascending numeric order, each key once. */
  predicate Ascending(bars: seq<Bar>, width: nat)
    requires width > 0
  {
    forall i, j :: 0 <= i < j < |bars| ==> BarSlot(bars[i], width) < BarSlot(bars[j], width)
  }

  /** The bar a row opens when its bucket is still empty. */
  function Seed(r: OrderRow): Bar {
    Bar(r.timestamp, Some(r.price), r.amount, Notional(r))
  }

  /** Folds one more row into an existing bar. */
  function Absorb(b: Bar, r: OrderRow): (c: Bar)
    ensures c.timestamp == b.timestamp
    ensures r.amount > 0.0 ==> c.amount > b.amount
    ensures Notional(r) >= 0.0 ==> c.volume >= b.volume
    ensures c.amount != 0.0 ==> c.price.Some? && c.price.value * c.amount == c.volume
    ensures c.amount == 0.0 ==> c.price.None?
  {
    var amount := b.amount + r.amount;
    var volume := b.volume + Notional(r);
    Bar(b.timestamp, Divide(volume, amount), amount, volume)
  }

  /** What a bucket holds after `r` lands in it, given what it held before. */
  function Merge(prev: Option<Bar>, r: OrderRow): Bar {
    match prev
    case None => Seed(r)
    case Some(b) => Absorb(b, r)
  }

  /** The bar stored under bucket `k`, as `bars[k]` reads the object. */
  function Lookup(bars: seq<Bar>, k: nat, width: nat): (o: Option<Bar>)
    requires width > 0
    ensures o.Some? ==> o.value in bars && BarSlot(o.value, width) == k
    ensures o.None? <==> forall i :: 0 <= i < |bars| ==> BarSlot(bars[i], width) != k
  {
    if |bars| == 0 then None
    else if BarSlot(bars[0], width) == k then Some(bars[0])
    else Lookup(bars[1..], k, width)
  }

  /** One step of the fold for one width: seed a new bucket or accumulate
      into the existing one, keeping the buckets in key order. */
  function Place(bars: seq<Bar>, r: OrderRow, width: nat): (out: seq<Bar>)
    requires width > 0 && Ascending(bars, width)
    ensures Ascending(out, width)
    ensures 0 < |out| && |bars| <= |out| <= |bars| + 1
    ensures BarSlot(out[0], width) ==
      if |bars| == 0 || Slot(r.timestamp, width) < BarSlot(bars[0], width)
      then Slot(r.timestamp, width) else BarSlot(bars[0], width)
  {
    if |bars| == 0 then [Seed(r)]
    else
      var s := Slot(r.timestamp, width);
      var k := BarSlot(bars[0], width);
      if s == k then [Absorb(bars[0], r)] + bars[1..]
      else if s < k then [Seed(r)] + bars
      else [bars[0]] + Place(bars[1..], r, width)
  }

  /** Place behaves as the keyed store of the source: only bucket
      `Slot(r.timestamp)` changes, and it changes as the seed/accumulate
      branches say. */
  lemma {:induction false} LookupPlace(bars: seq<Bar>, r: OrderRow, width: nat, k: nat)
    requires width > 0 && Ascending(bars, width)
    ensures Lookup(Place(bars, r, width), k, width) ==
      if k == Slot(r.timestamp, width) then Some(Merge(Lookup(bars, k, width), r))
      else Lookup(bars, k, width)
  {
    if |bars| > 0 {
      var s := Slot(r.timestamp, width);
      var k0 := BarSlot(bars[0], width);
      if s == k0 {
        assert ([Absorb(bars[0], r)] + bars[1..])[1..] == bars[1..];
      } else if s < k0 {
        assert ([Seed(r)] + bars)[1..] == bars;
        if k == s {
          assert forall i :: 0 <= i < |bars| ==> BarSlot(bars[i], width) >= k0;
        }
      } else {
        var rest := Place(bars[1..], r, width);
        assert ([bars[0]] + rest)[1..] == rest;
        LookupPlace(bars[1..], r, width, k);
      }
    }
  }

  /** The bars for one width after folding `rows` in order. */
  function FoldBars(rows: seq<OrderRow>, width: nat): (bars: seq<Bar>)
    requires width > 0
    ensures Ascending(bars, width)
    ensures |bars| <= |rows|
    decreases |rows|
  {
    if |rows| == 0 then []
    else Place(FoldBars(rows[..|rows| - 1], width), rows[|rows| - 1], width)
  }

  /** Folding one more row places it into the bars of the rows before it. */
  lemma FoldBarsStep(rows: seq<OrderRow>, i: nat, width: nat)
    requires width > 0 && i < |rows|
    ensures FoldBars(rows[..i + 1], width) == Place(FoldBars(rows[..i], width), rows[i], width)
  {
    assert rows[..i + 1][..i] == rows[..i];
  }

  // ----- Reference definition: a bar is the aggregate of its bucket's rows -----

  function RowsInSlot(rows: seq<OrderRow>, k: nat, width: nat): seq<OrderRow>
    requires width > 0
  {
    Filter(rows, (r: OrderRow) => Slot(r.timestamp, width) == k)
  }

  /** The bar of a bucket holding `rs`, stated directly: the first row's
      timestamp, the sums, and the volume-weighted price (the first row's
      own price while the bucket holds one row). */
  function BarOf(rs: seq<OrderRow>): Bar
    requires |rs| > 0
  {
    Bar(rs[0].timestamp,
        if |rs| == 1 then Some(rs[0].price) else Divide(SumNotional(rs), SumAmount(rs)),
        SumAmount(rs), SumNotional(rs))
  }

  /** A bucket opened by a row is the aggregate of that row alone: its
      timestamp, amount, notional volume and own price. */
  lemma SeedIsSingleRowBar(r: OrderRow)
    ensures Seed(r) == BarOf([r])
  {
    assert [r][1..] == [];
    assert SumAmount([r]) == r.amount;
    assert SumNotional([r]) == Notional(r);
  }

  function Expected(rows: seq<OrderRow>, k: nat, width: nat): Option<Bar>
    requires width > 0
  {
    var rs := RowsInSlot(rows, k, width);
    if |rs| == 0 then None else Some(BarOf(rs))
  }

  lemma RowsInSlotSnoc(rows: seq<OrderRow>, r: OrderRow, k: nat, width: nat)
    requires width > 0
    ensures RowsInSlot(rows + [r], k, width) ==
      RowsInSlot(rows, k, width) + (if Slot(r.timestamp, width) == k then [r] else [])
  {
    FilterAppend(rows, [r], (r: OrderRow) => Slot(r.timestamp, width) == k);
  }

  lemma MergeMatchesBarOf(rs: seq<OrderRow>, r: OrderRow)
    ensures Merge(if |rs| == 0 then None else Some(BarOf(rs)), r) == BarOf(rs + [r])
  {
    SumsAppend(rs, [r]);
    assert [r][1..] == [];
    if |rs| > 0 {
      assert (rs + [r])[0] == rs[0];
    }
  }

  /** The fold agrees with the reference for every bucket: bucket `k` is
      empty exactly when no row falls in it, and otherwise holds BarOf of
      the rows that do, in their input order. */
  lemma {:induction false} FoldBarsAggregatesSlots(rows: seq<OrderRow>, width: nat, k: nat)
    requires width > 0
    ensures Lookup(FoldBars(rows, width), k, width) == Expected(rows, k, width)
    decreases |rows|
  {
    if |rows| > 0 {
      var init := rows[..|rows| - 1];
      var r := rows[|rows| - 1];
      assert rows == init + [r];
      FoldBarsAggregatesSlots(init, width, k);
      LookupPlace(FoldBars(init, width), r, width, k);
      RowsInSlotSnoc(init, r, k, width);
      if Slot(r.timestamp, width) == k {
        MergeMatchesBarOf(RowsInSlot(init, k, width), r);
      } else {
        assert RowsInSlot(rows, k, width) == RowsInSlot(init, k, width);
      }
    }
  }

  lemma LookupAt(bars: seq<Bar>, i: nat, width: nat)
    requires width > 0 && Ascending(bars, width) && i < |bars|
    ensures Lookup(bars, BarSlot(bars[i], width), width) == Some(bars[i])
  {
    var o := Lookup(bars, BarSlot(bars[i], width), width);
    var j :| 0 <= j < |bars| && bars[j] == o.value;
    assert BarSlot(bars[j], width) == BarSlot(bars[i], width);
    assert j == i;
  }

  /** Every output bar is the aggregate of the rows of its own bucket. */
  lemma BarsAreSlotAggregates(rows: seq<OrderRow>, width: nat)
    requires width > 0
    ensures var bars := FoldBars(rows, width);
      forall i :: 0 <= i < |bars| ==>
        |RowsInSlot(rows, BarSlot(bars[i], width), width)| > 0 &&
        bars[i] == BarOf(RowsInSlot(rows, BarSlot(bars[i], width), width))
  {
    var bars := FoldBars(rows, width);
    forall i | 0 <= i < |bars|
      ensures |RowsInSlot(rows, BarSlot(bars[i], width), width)| > 0
      ensures bars[i] == BarOf(RowsInSlot(rows, BarSlot(bars[i], width), width))
    {
      LookupAt(bars, i, width);
      FoldBarsAggregatesSlots(rows, width, BarSlot(bars[i], width));
    }
  }

  /** Every row's bucket appears among the output bars. */
  lemma EveryRowHasItsBar(rows: seq<OrderRow>, width: nat)
    requires width > 0
    ensures var bars := FoldBars(rows, width);
      forall j :: 0 <= j < |rows| ==>
        exists i :: 0 <= i < |bars| && BarSlot(bars[i], width) == Slot(rows[j].timestamp, width)
  {
    var bars := FoldBars(rows, width);
    forall j | 0 <= j < |rows|
      ensures exists i :: 0 <= i < |bars| && BarSlot(bars[i], width) == Slot(rows[j].timestamp, width)
    {
      var k := Slot(rows[j].timestamp, width);
      assert rows[j] in RowsInSlot(rows, k, width);
      FoldBarsAggregatesSlots(rows, width, k);
    }
  }

  /** A bucket of rows with positive amounts has a defined volume-weighted price. */
  lemma BarOfPrice(rs: seq<OrderRow>)
    requires |rs| > 0 && PositiveAmounts(rs)
    ensures BarOf(rs).amount > 0.0 && BarOf(rs).price == Some(BarOf(rs).volume / BarOf(rs).amount)
  {
    SumAmountPositive(rs);
    if |rs| == 1 {
      var a := rs[0].amount;
      var p := rs[0].price;
      assert rs[1..] == [];
      assert SumAmount(rs) == a + SumAmount([]);
      assert SumNotional(rs) == p * a + SumNotional([]);
      assert (p * a) / a == p;
    }
  }

  /** With positive amounts every bar's price is its volume over its amount. */
  lemma PricesAreVolumeWeighted(rows: seq<OrderRow>, width: nat)
    requires width > 0 && PositiveAmounts(rows)
    ensures var bars := FoldBars(rows, width);
      forall i :: 0 <= i < |bars| ==>
        bars[i].amount > 0.0 && bars[i].price == Some(bars[i].volume / bars[i].amount)
  {
    var bars := FoldBars(rows, width);
    BarsAreSlotAggregates(rows, width);
    forall i | 0 <= i < |bars|
      ensures bars[i].amount > 0.0 && bars[i].price == Some(bars[i].volume / bars[i].amount)
    {
      var rs := RowsInSlot(rows, BarSlot(bars[i], width), width);
      SlotRowsPositive(rows, BarSlot(bars[i], width), width);
      BarOfPrice(rs);
    }
  }

  /** The rows of a slot have positive amounts when all rows do. */
  lemma SlotRowsPositive(rows: seq<OrderRow>, k: nat, width: nat)
    requires width > 0 && PositiveAmounts(rows)
    ensures PositiveAmounts(RowsInSlot(rows, k, width))
  {
    var rs := RowsInSlot(rows, k, width);
    forall m | 0 <= m < |rs| ensures rs[m].amount > 0.0 {
      assert rs[m] in rows;
    }
  }

  // ----- Totals over the bars of one width -----

  function BarsAmount(bars: seq<Bar>): real {
    if |bars| == 0 then 0.0 else bars[0].amount + BarsAmount(bars[1..])
  }

  function BarsVolume(bars: seq<Bar>): real {
    if |bars| == 0 then 0.0 else bars[0].volume + BarsVolume(bars[1..])
  }

  lemma {:induction false} PlaceTotals(bars: seq<Bar>, r: OrderRow, width: nat)
    requires width > 0 && Ascending(bars, width)
    ensures BarsAmount(Place(bars, r, width)) == BarsAmount(bars) + r.amount
    ensures BarsVolume(Place(bars, r, width)) == BarsVolume(bars) + Notional(r)
  {
    if |bars| > 0 {
      var s := Slot(r.timestamp, width);
      var k := BarSlot(bars[0], width);
      if s == k {
        assert ([Absorb(bars[0], r)] + bars[1..])[1..] == bars[1..];
      } else if s < k {
        assert ([Seed(r)] + bars)[1..] == bars;
      } else {
        var rest := Place(bars[1..], r, width);
        assert ([bars[0]] + rest)[1..] == rest;
        PlaceTotals(bars[1..], r, width);
      }
    }
  }

  /** For each width the bar amounts add up to the total row amount, and the
      bar volumes to the total notional. */
  lemma {:induction false} FoldBarsTotals(rows: seq<OrderRow>, width: nat)
    requires width > 0
    ensures BarsAmount(FoldBars(rows, width)) == SumAmount(rows)
    ensures BarsVolume(FoldBars(rows, width)) == SumNotional(rows)
    decreases |rows|
  {
    if |rows| > 0 {
      var init := rows[..|rows| - 1];
      var r := rows[|rows| - 1];
      assert rows == init + [r];
      FoldBarsTotals(init, width);
      PlaceTotals(FoldBars(init, width), r, width);
      SumsAppend(init, [r]);
      assert [r][1..] == [];
    }
  }

  // ----- The three widths, built in one pass -----

  datatype BarSet = BarSet(fiveMinute: seq<Bar>, tenMinute: seq<Bar>, thirtyMinute: seq<Bar>)

  /** The single loop of the source, updating all three bucket stores per
      row; the result is the three independent folds. */
  method BarsWithinHours(rows: seq<OrderRow>) returns (result: BarSet)
    ensures result.fiveMinute == FoldBars(rows, FiveMinutes)
    ensures result.tenMinute == FoldBars(rows, TenMinutes)
    ensures result.thirtyMinute == FoldBars(rows, ThirtyMinutes)
  {
    var five: seq<Bar> := [];
    var ten: seq<Bar> := [];
    var thirty: seq<Bar> := [];
    var i := 0;
    while i < |rows|
      invariant 0 <= i <= |rows|
      invariant five == FoldBars(rows[..i], FiveMinutes)
      invariant ten == FoldBars(rows[..i], TenMinutes)
      invariant thirty == FoldBars(rows[..i], ThirtyMinutes)
    {
      FoldBarsStep(rows, i, FiveMinutes);
      FoldBarsStep(rows, i, TenMinutes);
      FoldBarsStep(rows, i, ThirtyMinutes);
      five := Place(five, rows[i], FiveMinutes);
      ten := Place(ten, rows[i], TenMinutes);
      thirty := Place(thirty, rows[i], ThirtyMinutes);
      i := i + 1;
    }
    assert rows[..i] == rows;
    result := BarSet(five, ten, thirty);
  }

  /** The worked example: two rows a minute apart share one 5-minute bar. */
  lemma TwoRowsOneBar()
    ensures FoldBars([OrderRow("btc", 1.0, 2.0, Buy, 0), OrderRow("btc", 2.0, 3.0, Sell, 60000)], FiveMinutes)
      == [Bar(0, Some(1.6), 5.0, 8.0)]
  {
    var rows := [OrderRow("btc", 1.0, 2.0, Buy, 0), OrderRow("btc", 2.0, 3.0, Sell, 60000)];
    assert rows[..1] == [rows[0]];
    assert rows[..1][..0] == [];
  }
}

=== FILE: biggest.dfy ===
/** The biggest trades of a coin within the last hours
    (aggregator/jubi.js, `_getBiggestAmountOrders`). The two SQL queries are
    replaced by a filter over the order table; `now` stands for the clock. */
module Biggest {
  import opened Wrappers
  import opened Seqs
  import opened Sorting
  import opened Orders

  const DefaultHours: real := 24.0
  const DefaultPercent: real := 0.3
  const HourMs: real := 3600000.0

  datatype OrdersError =
    | MissingCoin     // `assert(coin, 'no coin')` throws
    | NegativeLimit   // the database refuses `limit` below zero

  /** The integer part of `x`, rounding toward zero: what `parseInt` is
      meant to make of the share of rows. */
  function Truncate(x: real): int {
    if 0.0 <= x then x.Floor else -((-x).Floor)
  }

  /** The integer part is the integer next to `x` on the side of zero. */
  lemma TruncateBounds(x: real)
    ensures 0.0 <= x ==> 0 <= Truncate(x) && Truncate(x) as real <= x < Truncate(x) as real + 1.0
    ensures x < 0.0 ==> Truncate(x) <= 0 && Truncate(x) as real - 1.0 < x <= Truncate(x) as real
  {
  }

  /** The number of rows kept for `parseInt(percent * count)`, read as the
      integer part of the share (see `LimitAsWritten` for the digits
      `parseInt` actually reads). */
  function Limit(percent: real, count: nat): int {
    Truncate(percent * count as real)
  }

  /** The limit is the whole number of rows in the share, and it is
      negative exactly when the share is at most minus one row. */
  lemma LimitIsWholeShare(percent: real, count: nat)
    ensures var x := percent * count as real;
      && (0.0 <= x ==> 0 <= Limit(percent, count) && Limit(percent, count) as real <= x < Limit(percent, count) as real + 1.0)
      && (x < 0.0 ==> Limit(percent, count) as real - 1.0 < x <= Limit(percent, count) as real)
    ensures Limit(percent, count) < 0 <==> percent * count as real <= -1.0
  {
    TruncateBounds(percent * count as real);
  }

  /** `y` multiplied by ten until it reaches [1, 10): the significand of a
      small number written in exponent notation. */
  function ScaleUp(y: real): (z: real)
    requires 0.0 < y < 10.0
    ensures 1.0 <= z < 10.0
    decreases (1.0 / y).Floor
  {
    if 1.0 <= y then y
    else
      ScaleUpStep(y);
      ScaleUp(10.0 * y)
  }

  lemma ScaleUpStep(y: real)
    requires 0.0 < y < 1.0
    ensures 0 <= (1.0 / (10.0 * y)).Floor < (1.0 / y).Floor
  {
    var q := 1.0 / y;
    assert q * y == 1.0;
    assert 1.0 < q;
    assert 1.0 / (10.0 * y) == q / 10.0;
    assert 1 <= q.Floor;
    assert q / 10.0 < q.Floor as real;
  }

  /** `y` divided by ten until it falls below ten: the significand of a
      large number written in exponent notation. */
  function ScaleDown(y: real): (z: real)
    requires 1.0 <= y
    ensures 1.0 <= z < 10.0
    decreases y.Floor
  {
    if y < 10.0 then y else ScaleDown(y / 10.0)
  }

  /** What `parseInt` reads from the string form of a positive number: below
      10^-6 and from 10^21 on, Number::toString of the ECMAScript standard
      writes exponent notation (`5e-7`, `1.5e+21`) and `parseInt` stops at
      the first character that is not a digit, keeping only the digit
      before the point. */
  function ParseIntOfPositive(y: real): (d: int)
    requires 0.0 < y
    ensures 0 <= d
  {
    if y < 0.000001 then ScaleUp(y).Floor
    else if 1000000000000000000000.0 <= y then ScaleDown(y).Floor
    else y.Floor
  }

  /** `parseInt(x)` for a number `x`: its sign, then the digits read. */
  function ParseIntOfNumber(x: real): int {
    if x == 0.0 then 0
    else if 0.0 < x then ParseIntOfPositive(x)
    else -ParseIntOfPositive(-x)
  }

  /** `parseInt(percent * count)` as written. */
  function LimitAsWritten(percent: real, count: nat): int {
    ParseIntOfNumber(percent * count as real)
  }

  /** In the range where numbers print in decimal notation, `parseInt`
      takes the integer part. */
  lemma AsWrittenInDecimalRange(x: real)
    requires x == 0.0 || 0.000001 <= x < 1000000000000000000000.0
      || -1000000000000000000000.0 < x <= -0.000001
    ensures ParseIntOfNumber(x) == Truncate(x)
  {
  }

  /** A positive share below 10^-6 of a row reads as between one and nine
      rows, where its integer part is none. */
  lemma TinyShareReadsAsRows(x: real)
    requires 0.0 < x < 0.000001
    ensures Truncate(x) == 0
    ensures 1 <= ParseIntOfNumber(x) <= 9
  {
  }

  /** With a percentage of 10^-7 over nine trades in the window, the limit as
      written keeps all nine; the integer part of the share keeps none. */
  lemma NineTradesAsWritten(w: seq<OrderRow>)
    requires |w| == 9
    ensures LimitAsWritten(0.0000001, 9) == 9
    ensures |Select(w, LimitAsWritten(0.0000001, 9)).value| == 9
    ensures |Select(w, Limit(0.0000001, 9)).value| == 0
  {
    assert 0.0000001 * 9.0 == 0.0000009;
    assert ScaleUp(9.0) == 9.0;
    assert ScaleUp(0.9) == 9.0;
    assert ScaleUp(0.09) == 9.0;
    assert ScaleUp(0.009) == 9.0;
    assert ScaleUp(0.0009) == 9.0;
    assert ScaleUp(0.00009) == 9.0;
    assert ScaleUp(0.000009) == 9.0;
    assert ScaleUp(0.0000009) == 9.0;
  }

  /** `moment().subtract(hours, 'hours').valueOf()` for the clock reading `now`. */
  function WindowStart(now: int, hours: real): real {
    now as real - hours * HourMs
  }

  /** A row is in the window of the last `hours` hours before `now` exactly
      when it is of the coin, earlier than `now` and less than `hours` old. */
  lemma WindowIsLastHours(r: OrderRow, coin: string, hours: real, now: int)
    ensures InWindow(r, coin, WindowStart(now, hours), now) <==>
      && r.name == coin
      && r.timestamp < now
      && ((now - r.timestamp) as real) < hours * HourMs
  {
  }

  /** Both queries' `where` clause: the coin, strictly inside (start, end). */
  predicate InWindow(r: OrderRow, coin: string, start: real, end: int) {
    r.name == coin && start < r.timestamp as real && r.timestamp < end
  }

  function InWindowOf(coin: string, start: real, end: int): OrderRow -> bool {
    r => InWindow(r, coin, start, end)
  }

  function Window(table: seq<OrderRow>, coin: string, start: real, end: int): (w: seq<OrderRow>)
    ensures forall x :: x in w <==> x in table && InWindow(x, coin, start, end)
    ensures forall x :: multiset(w)[x] == if InWindow(x, coin, start, end) then multiset(table)[x] else 0
    ensures multiset(w) <= multiset(table)
  {
    Filter(table, InWindowOf(coin, start, end))
  }

  /** A table wholly inside the window is its own window. */
  lemma WindowKeepsAll(table: seq<OrderRow>, coin: string, start: real, end: int)
    requires forall i :: 0 <= i < |table| ==> InWindow(table[i], coin, start, end)
    ensures Window(table, coin, start, end) == table
  {
    FilterAll(table, InWindowOf(coin, start, end));
  }

  function Min(a: int, b: int): int { if a < b then a else b }

  function NegAmount(r: OrderRow): real { -r.amount }

  /** No row of `out` has a larger amount than a row of `kept`. */
  ghost predicate Dominates(kept: multiset<OrderRow>, out: multiset<OrderRow>) {
    forall x, y :: x in out && y in kept ==> x.amount <= y.amount
  }

  /** `r` is `n` rows of `w`, ascending by amount, and no row of `w` left
      out is larger than a row kept. */
  ghost predicate TopRows(r: seq<OrderRow>, w: seq<OrderRow>, n: nat) {
    && |r| == n
    && SortedBy(r, Amount)
    && multiset(r) <= multiset(w)
    && Dominates(multiset(r), multiset(w) - multiset(r))
  }

  /** In a list sorted by descending amount, the first `n` rows dominate the rest. */
  lemma PrefixDominates(desc: seq<OrderRow>, n: nat)
    requires SortedBy(desc, NegAmount) && n <= |desc|
    ensures Dominates(multiset(desc[..n]), multiset(desc[n..]))
  {
    forall x, y | x in multiset(desc[n..]) && y in multiset(desc[..n])
      ensures x.amount <= y.amount
    {
      assert x in desc[n..];
      assert y in desc[..n];
      var j :| n <= j < |desc| && desc[j] == x;
      var i :| 0 <= i < n && desc[i] == y;
      assert NegAmount(desc[i]) <= NegAmount(desc[j]);
    }
  }

  /** Reversing a list sorted by descending amount sorts it ascending. */
  lemma ReverseAscends(s: seq<OrderRow>)
    requires SortedBy(s, NegAmount)
    ensures SortedBy(Reverse(s), Amount)
  {
    var r := Reverse(s);
    forall i, j | 0 <= i < j < |r| ensures r[i].amount <= r[j].amount {
      assert NegAmount(s[|s| - 1 - j]) <= NegAmount(s[|s| - 1 - i]);
    }
  }

  /** Cutting a sequence at `n` splits its elements in two. */
  lemma CutSplits(s: seq<OrderRow>, n: nat)
    requires n <= |s|
    ensures multiset(s) - multiset(s[..n]) == multiset(s[n..])
    ensures multiset(s[..n]) <= multiset(s)
  {
    assert s == s[..n] + s[n..];
  }

  /** A prefix of a sorted sequence is sorted. */
  lemma PrefixSorted(s: seq<OrderRow>, n: nat)
    requires SortedBy(s, NegAmount) && n <= |s|
    ensures SortedBy(s[..n], NegAmount)
  {
  }

  lemma TopOfSorted(w: seq<OrderRow>, n: nat)
    requires n <= |w|
    ensures TopRows(Reverse(SortBy(w, NegAmount)[..n]), w, n)
  {
    var desc := SortBy(w, NegAmount);
    CutSplits(desc, n);
    PrefixSorted(desc, n);
    ReverseAscends(desc[..n]);
    PrefixDominates(desc, n);
  }

  /** `order by amount desc limit n`, then `_.reverse`: the `n` largest rows
      by amount, largest last. */
  function Largest(w: seq<OrderRow>, n: nat): (r: seq<OrderRow>)
    requires n <= |w|
    ensures TopRows(r, w, n)
  {
    TopOfSorted(w, n);
    Reverse(SortBy(w, NegAmount)[..n])
  }

  /** The second query and the reversal, for a computed `limit`: a negative
      limit is refused, a limit beyond the row count keeps every row. */
  function Select(w: seq<OrderRow>, limit: int): (r: Result<seq<OrderRow>, OrdersError>)
    ensures r.Failure? <==> limit < 0
    ensures r.Failure? ==> r.error == NegativeLimit
    ensures r.Success? ==> TopRows(r.value, w, Min(limit, |w|))
  {
    if limit < 0 then Failure(NegativeLimit) else Success(Largest(w, Min(limit, |w|)))
  }

  /** The result of `_getBiggestAmountOrders(coin, hours, percent)` at time
      `now` over `table`; an absent argument takes its default. */
  function BiggestOrders(coin: Option<string>, hours: Option<real>, percent: Option<real>,
                         now: int, table: seq<OrderRow>): (r: Result<seq<OrderRow>, OrdersError>)
    ensures (coin.None? || coin.value == "") <==> r == Failure(MissingCoin)
    ensures coin.Some? && coin.value != "" ==>
      var w := Window(table, coin.value, WindowStart(now, hours.GetOr(DefaultHours)), now);
      var limit := Limit(percent.GetOr(DefaultPercent), |w|);
      && (r.Failure? <==> limit < 0)
      && (r.Success? ==> TopRows(r.value, w, Min(limit, |w|)))
  {
    if coin.None? || coin.value == "" then Failure(MissingCoin)
    else
      var start := WindowStart(now, hours.GetOr(DefaultHours));
      var w := Window(table, coin.value, start, now);
      var limit := Limit(percent.GetOr(DefaultPercent), |w|);
      Select(w, limit)
  }

  /** A percentage in [0, 1] keeps `floor(percent * count)` rows, never more
      than there are. */
  lemma LimitWithinCount(percent: real, count: nat)
    requires 0.0 <= percent <= 1.0
    ensures 0 <= Limit(percent, count) <= count
  {
    ShareWithinCount(percent, count as real);
    TruncateBounds(percent * count as real);
  }

  /** A share in [0, 1] of a non-negative count lies between zero and the count. */
  lemma ShareWithinCount(percent: real, c: real)
    requires 0.0 <= percent <= 1.0 && 0.0 <= c
    ensures 0.0 <= percent * c <= c
  {
    assert c - percent * c == (1.0 - percent) * c;
  }

  /** When every trade of the table lies in the window, a percentage in
      [0, 1] returns `floor(percent * count)` of them. */
  lemma ShareOfWindow(coin: string, hours: Option<real>, percent: real, now: int, table: seq<OrderRow>)
    requires coin != "" && 0.0 <= percent <= 1.0
    requires forall i :: 0 <= i < |table| ==>
      InWindow(table[i], coin, WindowStart(now, hours.GetOr(DefaultHours)), now)
    ensures BiggestOrders(Some(coin), hours, Some(percent), now, table).Success?
    ensures |BiggestOrders(Some(coin), hours, Some(percent), now, table).value| == Limit(percent, |table|)
  {
    WindowKeepsAll(table, coin, WindowStart(now, hours.GetOr(DefaultHours)), now);
    LimitWithinCount(percent, |table|);
  }

  /** Of ten trades, a percentage of 0.5 keeps five and the default keeps three. */
  lemma TenTradesLimits()
    ensures Limit(0.5, 10) == 5
    ensures Limit(DefaultPercent, 10) == 3
  {
    assert 0.5 * 10.0 == 5.0;
    assert DefaultPercent * 10.0 == 3.0;
  }
}

=== FILE: distribution.dfy ===
/** The amount distribution over price-grouped order rows
    (aggregator/jubi.js, the post-query part of _getAmountByPrice). */
module Distribution {
  import opened Wrappers
  import opened Quotients
  import opened Seqs
  import opened Sorting
  import opened Orders

  /** For all rows, the buy rows and the sell rows: the mean amount and the
      rows at or above it, ascending by amount. */
  datatype Distribution = Distribution(list: seq<OrderRow>, avg: Option<real>,
                                       buyList: seq<OrderRow>, buyAvg: Option<real>,
                                       sellList: seq<OrderRow>, sellAvg: Option<real>)

  /** `r => r.amount >= a`, the filter the source applies with a mean `a`. */
  function AmountAtLeast(a: real): OrderRow -> bool {
    (r: OrderRow) => r.amount >= a
  }

  /** `_.filter(rows, r => r.amount >= a)`. */
  function AtLeast(rows: seq<OrderRow>, a: real): (r: seq<OrderRow>)
    ensures forall i :: 0 <= i < |r| ==> r[i].amount >= a
    ensures forall x :: x in r <==> x in rows && x.amount >= a
    ensures forall x :: multiset(r)[x] == if x.amount >= a then multiset(rows)[x] else 0
  {
    Filter(rows, AmountAtLeast(a))
  }

  /** Whether a row of amount `amount` passes `amount >= avg`: never when
      the mean is undefined (NaN), since every comparison with NaN is false. */
  predicate Reaches(amount: real, avg: Option<real>) {
    avg.Some? && amount >= avg.value
  }

  /** `_.filter(rows, r => r.amount >= avg)`. */
  function AtOrAbove(rows: seq<OrderRow>, avg: Option<real>): (r: seq<OrderRow>)
    ensures forall x :: x in r <==> x in rows && Reaches(x.amount, avg)
    ensures forall x :: multiset(r)[x] == if Reaches(x.amount, avg) then multiset(rows)[x] else 0
  {
    match avg
    case None => []
    case Some(a) => AtLeast(rows, a)
  }

  /** Filtering by a bound keeps the rows of one amount `v` in their order
      when `v` reaches the bound, and none of them otherwise. */
  lemma AtLeastWithKey(rows: seq<OrderRow>, a: real, v: real)
    ensures WithKey(AtLeast(rows, a), Amount, v) == if v >= a then WithKey(rows, Amount, v) else []
  {
    FilterWithKey(rows, AmountAtLeast(a), Amount, v, v >= a);
  }

  /** The three running totals of the source's loop. */
  datatype Totals = Totals(all: real, buys: real, nonBuys: real)

  /** Reading one row: its amount is added to the total, and to the buy
      total or else to the sell total. */
  function Add(t: Totals, r: OrderRow): Totals {
    Totals(t.all + r.amount,
           t.buys + (if r.side == Buy then r.amount else 0.0),
           t.nonBuys + (if r.side == Buy then 0.0 else r.amount))
  }

  /** The totals after reading `rows` in order. */
  function Running(rows: seq<OrderRow>): Totals {
    if |rows| == 0 then Totals(0.0, 0.0, 0.0)
    else Add(Running(rows[..|rows| - 1]), rows[|rows| - 1])
  }

  /** Appending a row raises the amount total of a filter by the row's
      amount when the row passes it. */
  lemma FilteredSumSnoc(p: seq<OrderRow>, r: OrderRow, keep: OrderRow -> bool)
    ensures SumAmount(Filter(p + [r], keep))
         == SumAmount(Filter(p, keep)) + (if keep(r) then r.amount else 0.0)
  {
    FilterAppend(p, [r], keep);
    FilterSingleton(r, keep);
    SumsAppend(Filter(p, keep), Filter([r], keep));
    assert [r][1..] == [];
  }

  lemma {:induction false} RunningAll(rows: seq<OrderRow>)
    ensures Running(rows).all == SumAmount(rows)
  {
    if |rows| > 0 {
      var p, r := rows[..|rows| - 1], rows[|rows| - 1];
      assert rows == p + [r];
      RunningAll(p);
      SumsAppend(p, [r]);
      assert [r][1..] == [];
    }
  }

  lemma {:induction false} RunningBuys(rows: seq<OrderRow>)
    ensures Running(rows).buys == SumAmount(Filter(rows, IsBuy))
  {
    if |rows| > 0 {
      var p, r := rows[..|rows| - 1], rows[|rows| - 1];
      assert rows == p + [r];
      RunningBuys(p);
      FilteredSumSnoc(p, r, IsBuy);
    }
  }

  lemma {:induction false} RunningNonBuys(rows: seq<OrderRow>)
    ensures Running(rows).nonBuys == SumAmount(Filter(rows, IsNotBuy))
  {
    if |rows| > 0 {
      var p, r := rows[..|rows| - 1], rows[|rows| - 1];
      assert rows == p + [r];
      RunningNonBuys(p);
      FilteredSumSnoc(p, r, IsNotBuy);
    }
  }

  /** The running totals are the amount sums of all rows, of the buy rows
      and of every row that is not a buy. */
  lemma RunningSums(rows: seq<OrderRow>)
    ensures Running(rows) == Totals(SumAmount(rows), SumAmount(Filter(rows, IsBuy)),
                                    SumAmount(Filter(rows, IsNotBuy)))
  {
    RunningAll(rows);
    RunningBuys(rows);
    RunningNonBuys(rows);
  }

  /** The single loop of the source: the total amount, the buy total, and
      the total of every row that is not a buy. */
  method Total(rows: seq<OrderRow>) returns (sum: real, buySum: real, sellSum: real)
    ensures sum == SumAmount(rows)
    ensures buySum == SumAmount(Filter(rows, IsBuy))
    ensures sellSum == SumAmount(Filter(rows, IsNotBuy))
  {
    sum, buySum, sellSum := 0.0, 0.0, 0.0;
    for i := 0 to |rows|
      invariant Totals(sum, buySum, sellSum) == Running(rows[..i])
    {
      assert rows[..i + 1][..i] == rows[..i];
      var r := rows[i];
      sum := sum + r.amount;
      if r.side == Buy {
        buySum := buySum + r.amount;
      } else {
        sellSum := sellSum + r.amount;
      }
      assert Totals(sum, buySum, sellSum) == Add(Running(rows[..i]), r);
    }
    assert rows[..|rows|] == rows;
    RunningSums(rows);
  }

  /** `_.orderBy(_.filter(part, r => r.amount >= avg), 'amount', 'asc')`. */
  function Above(part: seq<OrderRow>, avg: Option<real>): seq<OrderRow> {
    SortBy(AtOrAbove(part, avg), Amount)
  }

  /** A list holds exactly the rows of `part` at or above `avg`, each as
      often as in `part`, ascending by amount, and for every amount the rows
      carrying it in their order in `part`. */
  ghost predicate Summarises(list: seq<OrderRow>, part: seq<OrderRow>, avg: Option<real>) {
    && SortedBy(list, Amount)
    && (forall x :: x in list <==> x in part && Reaches(x.amount, avg))
    && (forall x :: multiset(list)[x] == if Reaches(x.amount, avg) then multiset(part)[x] else 0)
    && (forall v :: WithKey(list, Amount, v) == if Reaches(v, avg) then WithKey(part, Amount, v) else [])
  }

  lemma AboveSummarises(part: seq<OrderRow>, avg: Option<real>)
    ensures Summarises(Above(part, avg), part, avg)
  {
    var kept := AtOrAbove(part, avg);
    var list := Above(part, avg);
    forall v ensures WithKey(list, Amount, v) == if Reaches(v, avg) then WithKey(part, Amount, v) else [] {
      SortByStable(kept, Amount, v);
      if avg.Some? {
        AtLeastWithKey(part, avg.value, v);
      }
    }
    forall x ensures x in list <==> x in kept {
      assert x in list <==> x in multiset(list);
      assert x in kept <==> x in multiset(kept);
    }
  }

  /** The result of `_getAmountByPrice` once the grouped rows are read:
      each mean is the total amount over the row count of its part (see
      `Quotients.Mean`), and the sell mean divides the total of all non-buy
      rows by the number of sell rows, as the source does. */
  method AmountByPrice(rows: seq<OrderRow>) returns (d: Distribution)
    ensures d.avg == Mean(SumAmount(rows), |rows|)
    ensures d.buyAvg == Mean(SumAmount(Filter(rows, IsBuy)), |Filter(rows, IsBuy)|)
    ensures d.sellAvg == Mean(SumAmount(Filter(rows, IsNotBuy)), |Filter(rows, IsSell)|)
    ensures Summarises(d.list, rows, d.avg)
    ensures Summarises(d.buyList, Filter(rows, IsBuy), d.buyAvg)
    ensures Summarises(d.sellList, Filter(rows, IsSell), d.sellAvg)
    ensures |rows| == 0 ==> d.list == [] && d.buyList == [] && d.sellList == []
  {
    var sum, buySum, sellSum := Total(rows);
    var avg := Mean(sum, |rows|);
    var buys := Filter(rows, IsBuy);
    var buyAvg := Mean(buySum, |buys|);
    var sells := Filter(rows, IsSell);
    var sellAvg := Mean(sellSum, |sells|);
    AboveSummarises(rows, avg);
    AboveSummarises(buys, buyAvg);
    AboveSummarises(sells, sellAvg);
    d := Distribution(Above(rows, avg), avg, Above(buys, buyAvg), buyAvg,
                      Above(sells, sellAvg), sellAvg);
  }

  lemma {:induction false} SumBelowBound(rows: seq<OrderRow>, a: real)
    requires |rows| > 0
    requires forall i :: 0 <= i < |rows| ==> rows[i].amount < a
    ensures SumAmount(rows) < a * (|rows| as real)
  {
    if |rows| > 1 {
      SumBelowBound(rows[1..], a);
    }
  }

  /** Rows whose total reaches `a` times their count include one of amount
      at least `a`. */
  lemma SomeRowReachesBound(rows: seq<OrderRow>, a: real)
    requires |rows| > 0 && SumAmount(rows) >= a * (|rows| as real)
    ensures exists i :: 0 <= i < |rows| && rows[i].amount >= a
  {
    if forall i :: 0 <= i < |rows| ==> rows[i].amount < a {
      SumBelowBound(rows, a);
      assert false;
    }
  }

  /** A part cannot lie wholly below its mean. */
  lemma SomeRowReaches(part: seq<OrderRow>)
    requires |part| > 0
    ensures exists i :: 0 <= i < |part| && part[i].amount >= Mean(SumAmount(part), |part|).value
  {
    MeanScales(SumAmount(part), |part|);
    SomeRowReachesBound(part, Mean(SumAmount(part), |part|).value);
  }

  /** Some row is at least the mean, so the list of a nonempty part is never
      empty. */
  lemma MeanIsReached(part: seq<OrderRow>)
    requires |part| > 0
    ensures |Above(part, Mean(SumAmount(part), |part|))| > 0
  {
    var avg := Mean(SumAmount(part), |part|);
    SomeRowReaches(part);
    var i :| 0 <= i < |part| && part[i].amount >= avg.value;
    AboveSummarises(part, avg);
    assert part[i] in Above(part, avg);
  }

  /** When every row is a buy or a sell, the sell total divided by the sell
      count is the mean of the sell amounts. */
  lemma SellTotalIsSellSum(rows: seq<OrderRow>)
    requires forall i :: 0 <= i < |rows| ==> rows[i].side == Buy || rows[i].side == Sell
    ensures SumAmount(Filter(rows, IsNotBuy)) == SumAmount(Filter(rows, IsSell))
  {
    FilterAgree(rows, IsNotBuy, IsSell);
  }

  /** Of a sell row and a row of another type, the sell filter keeps the
      first and the non-buy filter keeps both. */
  lemma SellAndOther(sell: OrderRow, other: OrderRow)
    requires sell.side == Sell && other.side.OtherSide?
    ensures Filter([sell, other], IsSell) == [sell]
    ensures Filter([sell, other], IsNotBuy) == [sell, other]
  {
    FilterPair(sell, other, IsSell);
    FilterPair(sell, other, IsNotBuy);
  }

  /** With a third row type the sell total also counts it: a sell row and a
      row of another type with a positive amount give a sell mean of both
      amounts over one sell row, above that row, so the sell list is empty. */
  lemma OtherTypesInflateSellMean(sell: OrderRow, other: OrderRow)
    requires sell.side == Sell && other.side.OtherSide? && other.amount > 0.0
    ensures var rows := [sell, other];
      && Mean(SumAmount(Filter(rows, IsNotBuy)), |Filter(rows, IsSell)|)
         == Some(sell.amount + other.amount)
      && Above(Filter(rows, IsSell), Some(sell.amount + other.amount)) == []
  {
    var rows, mean := [sell, other], sell.amount + other.amount;
    SellAndOther(sell, other);
    assert Mean(SumAmount(Filter(rows, IsNotBuy)), |Filter(rows, IsSell)|) == Some(mean) by {
      SumPair(sell, other);
      MeanOfOne(mean);
    }
    assert AtOrAbove([sell], Some(mean)) == [] by {
      FilterSingleton(sell, AmountAtLeast(mean));
    }
  }
}

=== FILE: orders.dfy ===
/** The order (trade) rows the aggregator reads from the `JubiOrders` table. */
module Orders {

  /** A `type` value other than 'buy' and 'sell', so that every column value
      has exactly one representation as a Side. */
  type OtherType = t: string | t != "buy" && t != "sell" witness "other"

  /** The `type` column. The aggregator tests it against 'buy' and 'sell';
      any other value is kept so that its effect on the sums can be stated. */
  datatype Side = Buy | Sell | OtherSide(typeName: OtherType)

  /** One row: price and amount after `parseFloat`, timestamp in epoch ms. */
  datatype OrderRow = OrderRow(name: string, price: real, amount: real, side: Side, timestamp: nat)

  function Amount(r: OrderRow): real { r.amount }

  /** Notional value of a row, the quantity the bars call volume. */
  function Notional(r: OrderRow): real { r.price * r.amount }

  predicate IsBuy(r: OrderRow) { r.side == Buy }
  predicate IsSell(r: OrderRow) { r.side == Sell }
  predicate IsNotBuy(r: OrderRow) { r.side != Buy }

  predicate PositiveAmounts(rows: seq<OrderRow>) {
    forall i :: 0 <= i < |rows| ==> rows[i].amount > 0.0
  }

  function SumAmount(rows: seq<OrderRow>): real {
    if |rows| == 0 then 0.0 else rows[0].amount + SumAmount(rows[1..])
  }

  function SumNotional(rows: seq<OrderRow>): real {
    if |rows| == 0 then 0.0 else Notional(rows[0]) + SumNotional(rows[1..])
  }

  lemma SumPair(x: OrderRow, y: OrderRow)
    ensures SumAmount([x, y]) == x.amount + y.amount
  {
    assert [x, y][1..] == [y];
    assert [y][1..] == [];
    assert SumAmount([y]) == y.amount;
  }

  /** Positive amounts have a positive total. */
  lemma {:induction false} SumAmountPositive(rows: seq<OrderRow>)
    requires |rows| > 0 && PositiveAmounts(rows)
    ensures SumAmount(rows) > 0.0
  {
    if |rows| > 1 {
      SumAmountPositive(rows[1..]);
    }
  }

  lemma {:induction false} SumsAppend(a: seq<OrderRow>, b: seq<OrderRow>)
    ensures SumAmount(a + b) == SumAmount(a) + SumAmount(b)
    ensures SumNotional(a + b) == SumNotional(a) + SumNotional(b)
  {
    if |a| == 0 {
      assert a + b == b;
    } else {
      assert (a + b)[1..] == a[1..] + b;
      SumsAppend(a[1..], b);
    }
  }
}

=== FILE: quotients.dfy ===
/** Division as the aggregator performs it on JavaScript numbers: a zero
    denominator yields NaN or an infinity, which the model reports as None. */
module Quotients {
  import opened Wrappers

  function Divide(n: real, d: real): (q: Option<real>)
    ensures q.Some? <==> d != 0.0
    ensures q.Some? ==> q.value * d == n
  {
    if d != 0.0 then Some(n / d) else None
  }

  /** The mean of `count` values summing to `total`; undefined for no values. */
  function Mean(total: real, count: nat): (m: Option<real>)
    ensures m.Some? <==> count > 0
    ensures m.Some? ==> m.value * (count as real) == total
  {
    Divide(total, count as real)
  }

  /** The defining property of a defined mean, as a fact to call on. */
  lemma MeanScales(total: real, count: nat)
    requires count > 0
    ensures Mean(total, count).value * (count as real) == total
  {
    assert Mean(total, count).Some?;
  }

  /** The mean of a single value is that value. */
  lemma MeanOfOne(total: real)
    ensures Mean(total, 1) == Some(total)
  {
  }
}

=== FILE: seqs.dfy ===
/** Generic sequence helpers (lodash's `_.filter`). */
module Seqs {

  /** The elements of `s` satisfying `p`, in their order in `s`. */
  function Filter<T(!new)>(s: seq<T>, p: T -> bool): (r: seq<T>)
    ensures |r| <= |s|
    ensures forall x :: x in r <==> x in s && p(x)
    ensures forall i :: 0 <= i < |r| ==> p(r[i])
    ensures forall x {:trigger multiset(r)[x]} :: multiset(r)[x] == if p(x) then multiset(s)[x] else 0
    ensures multiset(r) <= multiset(s)
  {
    if |s| == 0 then []
    else
      assert s == [s[0]] + s[1..];
      (if p(s[0]) then [s[0]] else []) + Filter(s[1..], p)
  }

  lemma FilterSingleton<T(!new)>(x: T, p: T -> bool)
    ensures Filter([x], p) == if p(x) then [x] else []
  {
    assert [x][1..] == [];
  }

  /** Filtering a pair keeps exactly the elements that pass. */
  lemma FilterPair<T(!new)>(x: T, y: T, p: T -> bool)
    ensures p(x) && !p(y) ==> Filter([x, y], p) == [x]
    ensures p(x) && p(y) ==> Filter([x, y], p) == [x, y]
  {
    assert [x, y][1..] == [y];
    FilterSingleton(y, p);
  }

  /** Filtering a concatenation filters each part: the kept elements stay in
      their input order. */
  lemma {:induction false} FilterAppend<T(!new)>(a: seq<T>, b: seq<T>, p: T -> bool)
    ensures Filter(a + b, p) == Filter(a, p) + Filter(b, p)
  {
    if |a| == 0 {
      assert a + b == b;
    } else {
      assert (a + b)[1..] == a[1..] + b;
      FilterAppend(a[1..], b, p);
    }
  }

  /** Filtering keeps everything when every element satisfies the predicate. */
  lemma {:induction false} FilterAll<T(!new)>(s: seq<T>, p: T -> bool)
    requires forall i :: 0 <= i < |s| ==> p(s[i])
    ensures Filter(s, p) == s
  {
    if |s| > 0 {
      FilterAll(s[1..], p);
    }
  }

  /** Two predicates that agree on every element of `s` filter it alike. */
  lemma {:induction false} FilterAgree<T(!new)>(s: seq<T>, p: T -> bool, q: T -> bool)
    requires forall i :: 0 <= i < |s| ==> p(s[i]) == q(s[i])
    ensures Filter(s, p) == Filter(s, q)
  {
    if |s| > 0 {
      FilterAgree(s[1..], p, q);
    }
  }

  /** `_.reverse`: the elements in the opposite order. */
  function Reverse<T>(s: seq<T>): (r: seq<T>)
    ensures |r| == |s|
    ensures forall i :: 0 <= i < |s| ==> r[i] == s[|s| - 1 - i]
    ensures multiset(r) == multiset(s)
  {
    if |s| == 0 then []
    else
      assert s == [s[0]] + s[1..];
      Reverse(s[1..]) + [s[0]]
  }
}

=== FILE: sorting.dfy ===
/** Stable sorting by a numeric key, the behaviour of lodash's `_.sortBy` and
    of `_.orderBy(..., 'asc')`: ascending key, and elements with equal keys
    keep their input order. */
module Sorting {
  import opened Seqs

  predicate SortedBy<T>(s: seq<T>, key: T -> real) {
    forall i, j :: 0 <= i < j < |s| ==> key(s[i]) <= key(s[j])
  }

  /** Every key in `s` is at least `lo`. */
  predicate KeysFrom<T>(s: seq<T>, key: T -> real, lo: real) {
    forall i :: 0 <= i < |s| ==> lo <= key(s[i])
  }

  /** The elements of `s` whose key is `v`, in their order in `s`. */
  function WithKey<T>(s: seq<T>, key: T -> real, v: real): seq<T> {
    if |s| == 0 then []
    else (if key(s[0]) == v then [s[0]] else []) + WithKey(s[1..], key, v)
  }

  /** Inserts `x` before the first element whose key is not smaller. */
  function Insert<T>(x: T, s: seq<T>, key: T -> real): (r: seq<T>)
    ensures multiset(r) == multiset(s) + multiset{x}
    ensures |r| == |s| + 1
  {
    if |s| == 0 || key(x) <= key(s[0]) then
      [x] + s
    else
      assert s == [s[0]] + s[1..];
      [s[0]] + Insert(x, s[1..], key)
  }

  /** A lower bound on the keys of `s` and of `x` bounds the keys after
      inserting. */
  lemma {:induction false} InsertKeysFrom<T>(x: T, s: seq<T>, key: T -> real, lo: real)
    requires KeysFrom(s, key, lo) && lo <= key(x)
    ensures KeysFrom(Insert(x, s, key), key, lo)
  {
    if |s| > 0 && key(s[0]) < key(x) {
      assert KeysFrom(s[1..], key, lo) by {
        forall i | 0 <= i < |s| - 1 ensures lo <= key(s[1..][i]) {
          assert s[1..][i] == s[i + 1];
        }
      }
      InsertKeysFrom(x, s[1..], key, lo);
    }
  }

  /** A sequence is sorted when its head bounds its sorted tail. */
  lemma SortedCons<T>(h: T, t: seq<T>, key: T -> real)
    requires SortedBy(t, key) && KeysFrom(t, key, key(h))
    ensures SortedBy([h] + t, key)
  {
    var s := [h] + t;
    forall i, j | 0 <= i < j < |s| ensures key(s[i]) <= key(s[j]) {
      assert s[j] == t[j - 1];
      if i > 0 {
        assert s[i] == t[i - 1];
      }
    }
  }

  /** The tail of a sorted sequence is sorted and bounded by its head. */
  lemma SortedTail<T>(s: seq<T>, key: T -> real)
    requires SortedBy(s, key) && |s| > 0
    ensures SortedBy(s[1..], key) && KeysFrom(s[1..], key, key(s[0]))
  {
    var t := s[1..];
    forall i, j | 0 <= i < j < |t| ensures key(t[i]) <= key(t[j]) {
      assert t[i] == s[i + 1] && t[j] == s[j + 1];
    }
    forall i | 0 <= i < |t| ensures key(s[0]) <= key(t[i]) {
      assert t[i] == s[i + 1];
    }
  }

  lemma {:induction false} InsertSorted<T>(x: T, s: seq<T>, key: T -> real)
    requires SortedBy(s, key)
    ensures SortedBy(Insert(x, s, key), key)
  {
    if |s| == 0 || key(x) <= key(s[0]) {
      if |s| > 0 {
        SortedTail(s, key);
        assert KeysFrom(s, key, key(x)) by {
          forall i | 0 <= i < |s| ensures key(x) <= key(s[i]) {
            if i > 0 {
              assert s[1..][i - 1] == s[i];
            }
          }
        }
      }
      SortedCons(x, s, key);
    } else {
      SortedTail(s, key);
      InsertSorted(x, s[1..], key);
      InsertKeysFrom(x, s[1..], key, key(s[0]));
      SortedCons(s[0], Insert(x, s[1..], key), key);
    }
  }

  function SortBy<T>(s: seq<T>, key: T -> real): (r: seq<T>)
    ensures SortedBy(r, key)
    ensures multiset(r) == multiset(s)
    ensures |r| == |s|
  {
    if |s| == 0 then []
    else
      assert s == [s[0]] + s[1..];
      InsertSorted(s[0], SortBy(s[1..], key), key);
      Insert(s[0], SortBy(s[1..], key), key)
  }

  /** The keyed subsequence of a sequence with a known head. */
  lemma WithKeyCons<T>(h: T, t: seq<T>, key: T -> real, v: real)
    ensures WithKey([h] + t, key, v) == (if key(h) == v then [h] else []) + WithKey(t, key, v)
  {
    assert ([h] + t)[1..] == t;
  }

  /** When every element with key `v` passes the filter alike, the elements
      with key `v` survive filtering, in their order, or none of them do. */
  lemma {:induction false} FilterWithKey<T(!new)>(s: seq<T>, p: T -> bool, key: T -> real, v: real, keep: bool)
    requires forall x :: key(x) == v ==> p(x) == keep
    ensures WithKey(Filter(s, p), key, v) == if keep then WithKey(s, key, v) else []
  {
    if |s| > 0 {
      var h, t := s[0], s[1..];
      FilterWithKey(t, p, key, v, keep);
      if p(h) {
        assert Filter(s, p) == [h] + Filter(t, p);
        WithKeyCons(h, Filter(t, p), key, v);
      } else {
        assert Filter(s, p) == Filter(t, p);
      }
    }
  }

  /** Two concatenated parts commute when one of them is empty. */
  lemma SwapPart<T>(a: seq<T>, b: seq<T>, c: seq<T>)
    requires a == [] || b == []
    ensures a + (b + c) == b + (a + c)
  {
    if a == [] {
      assert a + (b + c) == b + c;
    } else {
      assert b + (a + c) == a + c;
    }
  }

  /** The step of InsertWithKey where `x` goes behind the first element. */
  lemma InsertBehindWithKey<T>(x: T, s: seq<T>, key: T -> real, v: real)
    requires |s| > 0 && key(s[0]) < key(x)
    requires WithKey(Insert(x, s[1..], key), key, v)
          == (if key(x) == v then [x] else []) + WithKey(s[1..], key, v)
    ensures WithKey(Insert(x, s, key), key, v) == (if key(x) == v then [x] else []) + WithKey(s, key, v)
  {
    var head := if key(s[0]) == v then [s[0]] else [];
    var mid := if key(x) == v then [x] else [];
    assert Insert(x, s, key) == [s[0]] + Insert(x, s[1..], key);
    WithKeyCons(s[0], Insert(x, s[1..], key), key, v);
    assert s == [s[0]] + s[1..];
    WithKeyCons(s[0], s[1..], key, v);
    SwapPart(head, mid, WithKey(s[1..], key, v));
  }

  /** Inserting `x` puts it ahead of every element with its key. */
  lemma {:induction false} InsertWithKey<T>(x: T, s: seq<T>, key: T -> real, v: real)
    ensures WithKey(Insert(x, s, key), key, v) == (if key(x) == v then [x] else []) + WithKey(s, key, v)
  {
    if |s| == 0 || key(x) <= key(s[0]) {
      assert ([x] + s)[1..] == s;
    } else {
      InsertWithKey(x, s[1..], key, v);
      InsertBehindWithKey(x, s, key, v);
    }
  }

  /** Stability: sorting keeps, for every key value, the relative order of
      the elements carrying it. Together with SortedBy this pins the result
      down uniquely. */
  lemma {:induction false} SortByStable<T>(s: seq<T>, key: T -> real, v: real)
    ensures WithKey(SortBy(s, key), key, v) == WithKey(s, key, v)
  {
    if |s| > 0 {
      SortByStable(s[1..], key, v);
      InsertWithKey(s[0], SortBy(s[1..], key), key, v);
    }
  }

  /** Sorting neither loses nor invents elements. */
  lemma SortByMembers<T>(s: seq<T>, key: T -> real)
    ensures forall i :: 0 <= i < |s| ==> s[i] in SortBy(s, key)
    ensures forall i :: 0 <= i < |SortBy(s, key)| ==> SortBy(s, key)[i] in s
  {
    var r := SortBy(s, key);
    assert forall i :: 0 <= i < |s| ==> s[i] in multiset(s);
    assert forall i :: 0 <= i < |r| ==> r[i] in multiset(r);
  }

  /** In a sorted rearrangement `r` of `s`, the first element that passes `p`
      is an element `s[k]` of `s` with the smallest key among those that pass. */
  lemma FirstPassingHasLeastKey<T>(s: seq<T>, r: seq<T>, key: T -> real, p: T -> bool, i: nat) returns (k: nat)
    requires SortedBy(r, key) && multiset(r) == multiset(s)
    requires i < |r| && p(r[i])
    requires forall j :: 0 <= j < i ==> !p(r[j])
    ensures k < |s| && s[k] == r[i]
    ensures forall j :: 0 <= j < |s| && p(s[j]) ==> key(s[k]) <= key(s[j])
  {
    assert r[i] in multiset(s);
    k :| 0 <= k < |s| && s[k] == r[i];
    forall j | 0 <= j < |s| && p(s[j]) ensures key(r[i]) <= key(s[j]) {
      assert s[j] in multiset(r);
      var m :| 0 <= m < |r| && r[m] == s[j];
    }
  }
}

=== FILE: tick.dfy ===
/** The tick snapshot processor: one ticker row enriched with normalised
    price metrics and, when trend data exists, the daily change and the wave
    ages (aggregator/jubi.js, _proccess and its helpers). */
module Tick {
  import opened Wrappers
  import opened Quotients
  import opened Waves

  /** One venue snapshot of a coin. */
  datatype TickerRow = TickerRow(name: string, high: real, low: real, last: real,
                                 buy: real, sell: real, amount: real, volume: real,
                                 timestamp: int)

  /** The cached trend payload of a coin: yesterday's reference price and the
      sub-daily samples. */
  datatype TrendSeries = TrendSeries(yprice: real, data: seq<Sample>)

  datatype TrendFields = TrendFields(dailyChange: Option<real>, waves: map<string, WaveAge>)

  /** The enriched row: `high` and `low` are dropped; `position`, `variance`
      and `spread` are None where the source divides by zero. */
  datatype EnrichedRow = EnrichedRow(name: string, last: real, buy: real, sell: real,
                                     timestamp: int, amount: real, volume: real,
                                     position: Option<real>, variance: Option<real>,
                                     spread: Option<real>, trend: Option<TrendFields>)

  /** The wave thresholds as ratios of a day's high to its low: a 20% and a
      10% rise. */
  const WaveThresholds: map<string, real> := map["20% rise" := 1.2, "10% rise" := 1.1]

  /** `(last - low) / (high - low)`: where the last price sits in the day's
      range, 0 at the low and 1 at the high. */
  function PricePosition(high: real, low: real, last: real): (p: Option<real>)
    ensures p.None? <==> high == low
    ensures p.Some? ==> p.value * (high - low) == last - low
    ensures high > low && low <= last <= high ==> p.Some? && 0.0 <= p.value <= 1.0
    ensures high > low && last == low ==> p == Some(0.0)
    ensures high > low && last == high ==> p == Some(1.0)
  {
    UnitRatio(last - low, high - low);
    Divide(last - low, high - low)
  }

  lemma UnitRatio(n: real, d: real)
    ensures d > 0.0 && 0.0 <= n <= d ==> 0.0 <= n / d <= 1.0
    ensures d > 0.0 && n == d ==> n / d == 1.0
  {
  }

  /** The product `a * b`, kept behind a function so that the solver treats
      the squares of the variance score as atoms. */
  function Product(a: real, b: real): real { a * b }

  lemma ProductPositive(a: real, b: real)
    requires (a > 0.0 && b > 0.0) || (a < 0.0 && b < 0.0)
    ensures Product(a, b) > 0.0
  {
  }

  /** `Math.pow(1 - p, 2) + Math.pow(p, 2)`: 0.5 when the price sits
      mid-range, rising to 1 at either end of the range. */
  function VarianceScore(p: real): (v: real)
    ensures v >= 0.5
    ensures v == 0.5 <==> p == 0.5
    ensures 0.0 <= p <= 1.0 ==> v <= 1.0
    ensures p == 0.0 || p == 1.0 ==> v == 1.0
  {
    VarianceAboveHalf(p);
    VarianceAtMostOne(p);
    Product(1.0 - p, 1.0 - p) + Product(p, p)
  }

  lemma VarianceAtMostOne(p: real)
    ensures 0.0 <= p <= 1.0 ==> Product(1.0 - p, 1.0 - p) + Product(p, p) <= 1.0
  {
    if 0.0 <= p <= 1.0 {
      assert p * p <= p;
    }
  }

  lemma VarianceAboveHalf(p: real)
    ensures p != 0.5 ==> Product(1.0 - p, 1.0 - p) + Product(p, p) > 0.5
  {
    assert Product(1.0 - p, 1.0 - p) + Product(p, p) == 0.5 + 2.0 * Product(p - 0.5, p - 0.5);
    if p != 0.5 {
      ProductPositive(p - 0.5, p - 0.5);
    }
  }

  /** The score does not distinguish a price near the low from one equally
      near the high. */
  lemma VarianceSymmetric(p: real)
    ensures VarianceScore(p) == VarianceScore(1.0 - p)
  {
  }

  /** `(to - from) / from * 100`: the change from `from` to `to` in percent,
      used for the buy/sell spread and for the daily change. */
  function PercentChange(from: real, to: real): (c: Option<real>)
    ensures c.Some? <==> from != 0.0
    ensures c.Some? ==> c.value * from == (to - from) * 100.0
  {
    match Divide(to - from, from)
    case None => None
    case Some(q) => Some(q * 100.0)
  }

  lemma SpreadExample()
    ensures PercentChange(100.0, 110.0) == Some(10.0)
  {
  }

  function Process(row: TickerRow, trends: map<string, TrendSeries>, now: int,
                   startOfDay: int -> int): (e: EnrichedRow)
    ensures e.name == row.name && e.last == row.last && e.buy == row.buy && e.sell == row.sell
    ensures e.position == PricePosition(row.high, row.low, row.last)
    ensures e.position.None? <==> row.high == row.low
    ensures e.variance == if e.position.Some? then Some(VarianceScore(e.position.value)) else None
    ensures e.variance.Some? <==> e.position.Some?
    ensures row.high > row.low && row.low <= row.last <= row.high ==>
      && e.position.Some? && 0.0 <= e.position.value <= 1.0
      && e.variance.Some? && 0.5 <= e.variance.value <= 1.0
    ensures e.spread == PercentChange(row.buy, row.sell)
    ensures e.spread.None? <==> row.buy == 0.0
    ensures e.trend.Some? <==> row.name in trends
    ensures e.trend.Some? ==> e.trend.value.waves.Keys == WaveThresholds.Keys
    ensures e.trend.Some? ==>
      e.trend.value.waves == LastWaveSinceNow(trends[row.name].data, WaveThresholds, now, startOfDay)
    ensures e.trend.Some? ==>
      && e.trend.value.dailyChange == PercentChange(trends[row.name].yprice, row.last)
      && (e.trend.value.dailyChange.None? <==> trends[row.name].yprice == 0.0)
  {
    var position := PricePosition(row.high, row.low, row.last);
    var variance := match position
      case None => None
      case Some(p) => Some(VarianceScore(p));
    var trend := if row.name in trends then
        var series := trends[row.name];
        Some(TrendFields(PercentChange(series.yprice, row.last),
                         LastWaveSinceNow(series.data, WaveThresholds, now, startOfDay)))
      else None;
    EnrichedRow(row.name, row.last, row.buy, row.sell, row.timestamp, row.amount, row.volume,
                position, variance, PercentChange(row.buy, row.sell), trend)
  }

  /** The 'tick' request: every row processed, in order. */
  method ProcessTicks(rows: seq<TickerRow>, trends: map<string, TrendSeries>, now: int,
                      startOfDay: int -> int) returns (result: seq<EnrichedRow>)
    ensures |result| == |rows|
    ensures forall i :: 0 <= i < |rows| ==> result[i] == Process(rows[i], trends, now, startOfDay)
  {
    result := [];
    for i := 0 to |rows|
      invariant |result| == i
      invariant forall j :: 0 <= j < i ==> result[j] == Process(rows[j], trends, now, startOfDay)
    {
      result := result + [Process(rows[i], trends, now, startOfDay)];
    }
  }
}

=== FILE: waves.dfy ===
/** Day-bar consolidation and the "days since the last wave" search
    (aggregator/jubi.js, _lastWaveSinceNow). */
module Waves {
  import opened Wrappers
  import opened Sorting

  const MsPerDay: int := 86400000

  /** One trend sample `[time, price]`, time in unix seconds. */
  datatype Sample = Sample(time: int, price: real)

  /** A consolidated day: its start (epoch ms) and the extreme prices seen. */
  datatype DayBar = DayBar(date: int, high: real, low: real)

  /** The result for one threshold: the '> 3' display sentinel when no day
      qualifies, otherwise the age of the newest qualifying day in days. */
  datatype WaveAge = OverThreeDays | DaysAgo(days: real)

  function SampleMs(s: Sample): int { s.time * 1000 }

  /** `date.diff(currDate, 'days') >= 1`: the sample lies at least a whole
      day after the start of the current day bar. */
  predicate OpensNewDay(s: Sample, date: int) {
    SampleMs(s) - date >= MsPerDay
  }

  /** moment's `a.diff(b, 'days')` on epoch milliseconds, time-zone shifts
      aside: the whole days from `b` to `a`, truncated toward zero. */
  function DayDiff(a: int, b: int): int {
    if a >= b then (a - b) / MsPerDay else -((b - a) / MsPerDay)
  }

  /** A sample opens a new day exactly when moment counts at least one whole
      day between it and the current bar's day start. */
  lemma NewDayIsWholeDayLater(s: Sample, date: int)
    ensures OpensNewDay(s, date) <==> DayDiff(SampleMs(s), date) >= 1
  {
    var a := SampleMs(s);
    if a >= date {
      assert (a - date) / MsPerDay >= 1 <==> a - date >= MsPerDay;
    } else {
      assert (date - a) / MsPerDay >= 0;
    }
  }

  function Open(s: Sample, startOfDay: int -> int): DayBar {
    DayBar(startOfDay(SampleMs(s)), s.price, s.price)
  }

  function Extend(b: DayBar, s: Sample): DayBar {
    DayBar(b.date,
           if s.price > b.high then s.price else b.high,
           if s.price < b.low then s.price else b.low)
  }

  /** The loop state: closed bars and the bar in progress. */
  datatype Walk = Walk(closed: seq<DayBar>, current: Option<DayBar>)

  predicate Ordered(b: DayBar) { b.low <= b.high }

  function WalkSamples(samples: seq<Sample>, startOfDay: int -> int): (w: Walk)
    ensures w.current.Some? <==> |samples| > 0
    ensures |w.closed| + (if w.current.Some? then 1 else 0) <= |samples|
    ensures forall i :: 0 <= i < |w.closed| ==> Ordered(w.closed[i])
    ensures w.current.Some? ==> Ordered(w.current.value)
    decreases |samples|
  {
    if |samples| == 0 then Walk([], None)
    else
      var w := WalkSamples(samples[..|samples| - 1], startOfDay);
      var s := samples[|samples| - 1];
      match w.current
      case None => Walk(w.closed, Some(Open(s, startOfDay)))
      case Some(b) =>
        if OpensNewDay(s, b.date) then Walk(w.closed + [b], Some(Open(s, startOfDay)))
        else Walk(w.closed, Some(Extend(b, s)))
  }

  /** The day bars, the one still in progress appended last. */
  function DayBars(samples: seq<Sample>, startOfDay: int -> int): (bars: seq<DayBar>)
    ensures |bars| <= |samples|
    ensures |bars| == 0 <==> |samples| == 0
    ensures forall i :: 0 <= i < |bars| ==> bars[i].low <= bars[i].high
  {
    var w := WalkSamples(samples, startOfDay);
    match w.current
    case None => w.closed
    case Some(b) => w.closed + [b]
  }

  // ----- Reference definition: groups of samples and their extremes -----

  function GroupDate(g: seq<Sample>, startOfDay: int -> int): int
    requires |g| > 0
  {
    startOfDay(SampleMs(g[0]))
  }

  predicate NonEmptyGroups(gs: seq<seq<Sample>>) {
    forall i :: 0 <= i < |gs| ==> |gs[i]| > 0
  }

  /** Adds one sample: a new group when it opens a new day relative to the
      last group's start, otherwise it joins the last group. */
  function AddSample(gs: seq<seq<Sample>>, s: Sample, startOfDay: int -> int): (r: seq<seq<Sample>>)
    requires NonEmptyGroups(gs)
    ensures NonEmptyGroups(r) && |r| > 0
  {
    if |gs| == 0 || OpensNewDay(s, GroupDate(gs[|gs| - 1], startOfDay)) then gs + [[s]]
    else gs[..|gs| - 1] + [gs[|gs| - 1] + [s]]
  }

  /** The samples split into consecutive day groups. */
  function Groups(samples: seq<Sample>, startOfDay: int -> int): (gs: seq<seq<Sample>>)
    ensures NonEmptyGroups(gs)
    ensures |gs| == 0 <==> |samples| == 0
    decreases |samples|
  {
    if |samples| == 0 then []
    else AddSample(Groups(samples[..|samples| - 1], startOfDay), samples[|samples| - 1], startOfDay)
  }

  function Flatten(gs: seq<seq<Sample>>): seq<Sample> {
    if |gs| == 0 then [] else Flatten(gs[..|gs| - 1]) + gs[|gs| - 1]
  }

  lemma AddSampleFlatten(gs: seq<seq<Sample>>, s: Sample, startOfDay: int -> int)
    requires NonEmptyGroups(gs)
    ensures Flatten(AddSample(gs, s, startOfDay)) == Flatten(gs) + [s]
  {
    var r := AddSample(gs, s, startOfDay);
    if |gs| == 0 || OpensNewDay(s, GroupDate(gs[|gs| - 1], startOfDay)) {
      assert r[..|r| - 1] == gs;
    } else {
      var n := |gs| - 1;
      assert r[..n] == gs[..n];
      assert Flatten(r) == Flatten(gs[..n]) + (gs[n] + [s]);
    }
  }

  /** The groups, concatenated, are the series in its order. */
  lemma {:induction false} GroupsFlatten(samples: seq<Sample>, startOfDay: int -> int)
    ensures Flatten(Groups(samples, startOfDay)) == samples
    decreases |samples|
  {
    if |samples| > 0 {
      var init := samples[..|samples| - 1];
      GroupsFlatten(init, startOfDay);
      AddSampleFlatten(Groups(init, startOfDay), samples[|samples| - 1], startOfDay);
      assert samples == init + [samples[|samples| - 1]];
    }
  }

  predicate WithinADay(gs: seq<seq<Sample>>, startOfDay: int -> int)
    requires NonEmptyGroups(gs)
  {
    forall i, j :: 0 <= i < |gs| && 0 < j < |gs[i]| ==>
      !OpensNewDay(gs[i][j], GroupDate(gs[i], startOfDay))
  }

  predicate StartNewDays(gs: seq<seq<Sample>>, startOfDay: int -> int)
    requires NonEmptyGroups(gs)
  {
    forall i :: 0 < i < |gs| ==> OpensNewDay(gs[i][0], GroupDate(gs[i - 1], startOfDay))
  }

  lemma AddSampleKeepsDays(gs: seq<seq<Sample>>, s: Sample, startOfDay: int -> int)
    requires NonEmptyGroups(gs) && WithinADay(gs, startOfDay) && StartNewDays(gs, startOfDay)
    ensures WithinADay(AddSample(gs, s, startOfDay), startOfDay)
    ensures StartNewDays(AddSample(gs, s, startOfDay), startOfDay)
  {
    var r := AddSample(gs, s, startOfDay);
    if |gs| == 0 || OpensNewDay(s, GroupDate(gs[|gs| - 1], startOfDay)) {
      assert forall i :: 0 <= i < |gs| ==> r[i] == gs[i];
    } else {
      var n := |gs| - 1;
      assert forall i :: 0 <= i < n ==> r[i] == gs[i];
      assert r[n] == gs[n] + [s];
      assert r[n][0] == gs[n][0];
    }
  }

  /** Inside a group no sample after the first opens a new day, and each
      group after the first starts a whole day after the previous group's
      day start: together with GroupsFlatten this fixes the grouping. */
  lemma {:induction false} GroupsFollowDays(samples: seq<Sample>, startOfDay: int -> int)
    ensures WithinADay(Groups(samples, startOfDay), startOfDay)
    ensures StartNewDays(Groups(samples, startOfDay), startOfDay)
    decreases |samples|
  {
    if |samples| > 0 {
      var init := samples[..|samples| - 1];
      GroupsFollowDays(init, startOfDay);
      AddSampleKeepsDays(Groups(init, startOfDay), samples[|samples| - 1], startOfDay);
    }
  }

  function MaxPrice(g: seq<Sample>): (m: real)
    requires |g| > 0
    ensures forall j :: 0 <= j < |g| ==> g[j].price <= m
    ensures exists j :: 0 <= j < |g| && g[j].price == m
  {
    if |g| == 1 then g[0].price
    else
      var m := MaxPrice(g[..|g| - 1]);
      var p := g[|g| - 1].price;
      assert forall j :: 0 <= j < |g| - 1 ==> g[j] == g[..|g| - 1][j];
      if p > m then p else m
  }

  function MinPrice(g: seq<Sample>): (m: real)
    requires |g| > 0
    ensures forall j :: 0 <= j < |g| ==> m <= g[j].price
    ensures exists j :: 0 <= j < |g| && g[j].price == m
  {
    if |g| == 1 then g[0].price
    else
      var m := MinPrice(g[..|g| - 1]);
      var p := g[|g| - 1].price;
      assert forall j :: 0 <= j < |g| - 1 ==> g[j] == g[..|g| - 1][j];
      if p < m then p else m
  }

  function DayBarOf(g: seq<Sample>, startOfDay: int -> int): DayBar
    requires |g| > 0
  {
    DayBar(GroupDate(g, startOfDay), MaxPrice(g), MinPrice(g))
  }

  lemma ExtendGroup(g: seq<Sample>, s: Sample, startOfDay: int -> int)
    requires |g| > 0
    ensures Extend(DayBarOf(g, startOfDay), s) == DayBarOf(g + [s], startOfDay)
  {
    assert (g + [s])[..|g|] == g;
  }

  /** The walk's bars are the day bars of the groups, the current bar
      being the last group's. */
  ghost predicate Follows(w: Walk, gs: seq<seq<Sample>>, startOfDay: int -> int)
    requires NonEmptyGroups(gs)
  {
    && |w.closed| + (if w.current.Some? then 1 else 0) == |gs|
    && (w.current.Some? ==> w.current.value == DayBarOf(gs[|gs| - 1], startOfDay))
    && (forall i :: 0 <= i < |w.closed| ==> w.closed[i] == DayBarOf(gs[i], startOfDay))
  }

  /** A sample that opens a new group closes the current bar and opens one. */
  lemma NewDayStep(samples: seq<Sample>, startOfDay: int -> int)
    requires |samples| > 0
    requires var init := samples[..|samples| - 1];
      Follows(WalkSamples(init, startOfDay), Groups(init, startOfDay), startOfDay)
    requires var prev := Groups(samples[..|samples| - 1], startOfDay);
      |prev| == 0 || OpensNewDay(samples[|samples| - 1], GroupDate(prev[|prev| - 1], startOfDay))
    ensures Follows(WalkSamples(samples, startOfDay), Groups(samples, startOfDay), startOfDay)
  {
    var prev := Groups(samples[..|samples| - 1], startOfDay);
    var gs := Groups(samples, startOfDay);
    assert gs == prev + [[samples[|samples| - 1]]];
    assert [samples[|samples| - 1]][..0] == [];
  }

  /** A sample within the current day extends the current bar. */
  lemma SameDayStep(samples: seq<Sample>, startOfDay: int -> int)
    requires |samples| > 0
    requires var init := samples[..|samples| - 1];
      Follows(WalkSamples(init, startOfDay), Groups(init, startOfDay), startOfDay)
    requires var prev := Groups(samples[..|samples| - 1], startOfDay);
      |prev| > 0 && !OpensNewDay(samples[|samples| - 1], GroupDate(prev[|prev| - 1], startOfDay))
    ensures Follows(WalkSamples(samples, startOfDay), Groups(samples, startOfDay), startOfDay)
  {
    var prev := Groups(samples[..|samples| - 1], startOfDay);
    var n := |prev| - 1;
    ExtendGroup(prev[n], samples[|samples| - 1], startOfDay);
    var gs := Groups(samples, startOfDay);
    assert gs == prev[..n] + [prev[n] + [samples[|samples| - 1]]];
  }

  lemma {:induction false} WalkFollowsGroups(samples: seq<Sample>, startOfDay: int -> int)
    ensures Follows(WalkSamples(samples, startOfDay), Groups(samples, startOfDay), startOfDay)
    decreases |samples|
  {
    if |samples| > 0 {
      var init := samples[..|samples| - 1];
      WalkFollowsGroups(init, startOfDay);
      var prev := Groups(init, startOfDay);
      if |prev| == 0 || OpensNewDay(samples[|samples| - 1], GroupDate(prev[|prev| - 1], startOfDay)) {
        NewDayStep(samples, startOfDay);
      } else {
        SameDayStep(samples, startOfDay);
      }
    }
  }

  /** Each day bar spans exactly one group: its date is the group's day
      start, its high and low the group's maximum and minimum price. */
  lemma DayBarsAreGroupExtremes(samples: seq<Sample>, startOfDay: int -> int)
    ensures var bars := DayBars(samples, startOfDay);
      var gs := Groups(samples, startOfDay);
      |bars| == |gs| && forall i :: 0 <= i < |bars| ==> bars[i] == DayBarOf(gs[i], startOfDay)
  {
    WalkFollowsGroups(samples, startOfDay);
  }

  /** The worked example: two samples on one day and one a day later give
      two day bars. */
  lemma ThreeSamplesTwoDays()
    ensures
      var sod := (t: int) => t - t % MsPerDay;
      DayBars([Sample(0, 1.0), Sample(3600, 1.5), Sample(90000, 2.0)], sod)
        == [DayBar(0, 1.5, 1.0), DayBar(86400000, 2.0, 2.0)]
  {
    var sod := (t: int) => t - t % MsPerDay;
    var samples := [Sample(0, 1.0), Sample(3600, 1.5), Sample(90000, 2.0)];
    assert samples[..2][..1] == [samples[0]];
    assert samples[..2][..1][..0] == [];
    assert samples[..2] == [samples[0], samples[1]];
    assert WalkSamples([], sod) == Walk([], None);
    assert WalkSamples([samples[0]], sod) == Walk([], Some(DayBar(0, 1.0, 1.0)));
    assert WalkSamples(samples[..2], sod) == Walk([], Some(DayBar(0, 1.5, 1.0)));
    assert WalkSamples(samples, sod) == Walk([DayBar(0, 1.5, 1.0)], Some(DayBar(86400000, 2.0, 2.0)));
  }

  // ----- Wave search -----

  /** `bar.high / bar.low >= ratio` on JavaScript numbers: with a zero low
      the quotient is +Infinity (a positive high) or NaN (a zero high). */
  predicate Qualifies(b: DayBar, ratio: real) {
    if b.low != 0.0 then b.high / b.low >= ratio else b.high > 0.0
  }

  /** The test without division: with a positive low it is `high >= ratio
      * low`, with a negative low the inequality turns, and with a zero low
      the quotient is +Infinity, -Infinity or NaN, so only a positive high
      passes. */
  lemma QualifiesAsProduct(b: DayBar, ratio: real)
    ensures b.low > 0.0 ==> (Qualifies(b, ratio) <==> b.high >= ratio * b.low)
    ensures b.low < 0.0 ==> (Qualifies(b, ratio) <==> b.high <= ratio * b.low)
    ensures b.low == 0.0 ==> (Qualifies(b, ratio) <==> b.high > 0.0)
  {
    if b.low != 0.0 {
      var q := b.high / b.low;
      assert q * b.low == b.high;
      ScaleComparison(q, ratio, b.low);
    }
  }

  /** Multiplying both sides by `c` keeps a comparison for positive `c` and
      turns it for negative `c`. */
  lemma ScaleComparison(q: real, ratio: real, c: real)
    ensures c > 0.0 ==> (q >= ratio <==> q * c >= ratio * c)
    ensures c < 0.0 ==> (q >= ratio <==> q * c <= ratio * c)
  {
    assert q * c - ratio * c == (q - ratio) * c;
  }

  function NegDate(b: DayBar): real { -(b.date as real) }

  /** `(now - date) / 86400000`, before display rounding. */
  function AgeInDays(now: int, date: int): real {
    (now - date) as real / (MsPerDay as real)
  }

  /** The scan of the bars, stopping at the first that qualifies. */
  function FirstWave(bars: seq<DayBar>, ratio: real, now: int): (r: WaveAge)
    ensures r.OverThreeDays? <==> forall i :: 0 <= i < |bars| ==> !Qualifies(bars[i], ratio)
    ensures r.DaysAgo? ==> exists i :: (0 <= i < |bars| && Qualifies(bars[i], ratio)
      && r.days == AgeInDays(now, bars[i].date)
      && forall j :: 0 <= j < i ==> !Qualifies(bars[j], ratio))
  {
    if |bars| == 0 then OverThreeDays
    else if Qualifies(bars[0], ratio) then DaysAgo(AgeInDays(now, bars[0].date))
    else
      var r := FirstWave(bars[1..], ratio, now);
      assert forall i :: 0 < i < |bars| ==> bars[i] == bars[1..][i - 1];
      r
  }

  /** `bars[i]` reaches the ratio and no bar that does is newer. */
  predicate NewestWave(bars: seq<DayBar>, i: int, ratio: real) {
    && 0 <= i < |bars| && Qualifies(bars[i], ratio)
    && forall j :: 0 <= j < |bars| && Qualifies(bars[j], ratio) ==> bars[j].date <= bars[i].date
  }

  lemma ScanFindsNone(bars: seq<DayBar>, ratio: real, now: int)
    ensures FirstWave(SortBy(bars, NegDate), ratio, now).OverThreeDays?
      <==> forall i :: 0 <= i < |bars| ==> !Qualifies(bars[i], ratio)
  {
    SortByMembers(bars, NegDate);
  }

  lemma ScanFindsNewest(bars: seq<DayBar>, ratio: real, now: int)
    requires exists i :: 0 <= i < |bars| && Qualifies(bars[i], ratio)
    ensures FirstWave(SortBy(bars, NegDate), ratio, now).DaysAgo?
    ensures exists k :: (NewestWave(bars, k, ratio)
      && FirstWave(SortBy(bars, NegDate), ratio, now).days == AgeInDays(now, bars[k].date))
  {
    var sorted := SortBy(bars, NegDate);
    ScanFindsNone(bars, ratio, now);
    var r := FirstWave(sorted, ratio, now);
    var i :| 0 <= i < |sorted| && Qualifies(sorted[i], ratio)
      && r.days == AgeInDays(now, sorted[i].date)
      && forall j :: 0 <= j < i ==> !Qualifies(sorted[j], ratio);
    var k := FirstPassingHasLeastKey(bars, sorted, NegDate, b => Qualifies(b, ratio), i);
    assert NewestWave(bars, k, ratio);
  }

  /** Sort newest day first, then scan: the sentinel exactly when no day
      reaches the ratio (inclusive), otherwise the age of the newest day that
      does. */
  function LastWave(bars: seq<DayBar>, ratio: real, now: int): (r: WaveAge)
    ensures r.OverThreeDays? <==> forall i :: 0 <= i < |bars| ==> !Qualifies(bars[i], ratio)
    ensures r.DaysAgo? ==> exists k :: NewestWave(bars, k, ratio) && r.days == AgeInDays(now, bars[k].date)
  {
    ScanFindsNone(bars, ratio, now);
    var r := FirstWave(SortBy(bars, NegDate), ratio, now);
    if r.DaysAgo? then
      ScanFindsNewest(bars, ratio, now);
      r
    else
      r
  }

  /** One result per threshold label. */
  function LastWaveSinceNow(series: seq<Sample>, thresholds: map<string, real>,
                            now: int, startOfDay: int -> int): (r: map<string, WaveAge>)
    ensures r.Keys == thresholds.Keys
    ensures forall name :: name in r ==>
      (r[name].OverThreeDays? <==>
         forall b :: b in DayBars(series, startOfDay) ==> !Qualifies(b, thresholds[name]))
    ensures forall name :: name in r && r[name].DaysAgo? ==>
      exists k :: (NewestWave(DayBars(series, startOfDay), k, thresholds[name])
        && r[name].days == AgeInDays(now, DayBars(series, startOfDay)[k].date))
  {
    var bars := DayBars(series, startOfDay);
    map name | name in thresholds :: LastWave(bars, thresholds[name], now)
  }
}

=== FILE: wrappers.dfy ===
/** Optional values and results with an error, shared by every module. */
module Wrappers {

  /** A value that may be absent: JavaScript's `undefined`, `NaN` or a missing key. */
  datatype Option<+T> = None | Some(value: T) {

    /** The value if present, else `default`: how a JavaScript default
        parameter replaces an `undefined` argument. */
    function GetOr(default: T): T {
      match this
      case Some(v) => v
      case None() => default
    }
  }

  /** Either a computed value or the error that stopped the computation. */
  datatype Result<+R, +E> = Success(value: R) | Failure(error: E)
}
